=== FILE: README.md ===
# Sigstore bundle migration, modelled in Dafny

`main.py` is a one-shot operator script. It repairs the Sigstore bundles published beside
CPython release artifacts. It walks the artifact tree and picks out every `*.sigstore`
file whose name carries a CPython release (`-3.<minor>.`). After a confirmation it backs
each bundle up into a fresh temporary directory and writes a `restore-backup.sh` script.
After a second confirmation it copies each bundle into a second fresh directory and writes
an `apply-changes.sh` script. It then runs `sigstore plumbing fix-bundle` on every working
copy. Finally, for every bundle, it checks the signature again with `sigstore verify
identity`, using the original artifact and the OIDC issuer and identity configured for
that release. Only if every bundle clears every step does it tell the operator to run the
apply script. The script never touches the live bundles itself.

This project models the decision logic of that script:

- `optional.dfy`: the `Option` type.
- `strings.dfy`: the `str` methods the script uses.
- `version.dfy`: the release pattern `-(3\.[0-9]{,2})\.[0-9]{,2}` and Python's leftmost
  `search` over it, written as an explicit character scanner.
- `policies.dfy`: the seven-entry issuer and identity table.
- `files.dfy`: paths, the abstract file tree `map<Path, Content>`, and the script text.
  It also has a parser that reads a script back.
- `discovery.dfy`: the discovery filter and the derivation of a bundle's artifact.
- `phases.dfy`: the copy loop shared by the backup and working-copy phases, the repair
  loop, and the verification loop.
- `migration.dfy`: the whole run as one function over an environment. It also proves the
  end-to-end theorems: originals are never written, success is all or nothing, the
  scripts list exactly what they copy, and repairs come before verifications.

The environment holds everything the script gets from outside:

- the tree;
- the order `os.walk` visits files in;
- the operator's two replies;
- the two directories `mkdtemp` returns;
- the repair tool, as a function from content to optional repaired content;
- the verify tool, as a predicate over (bundle, artifact, issuer, identity).

Two guarantees of the environment are preconditions (`Migration.Admissible`):

- every walked path is a file of the tree;
- the two temporary directories are new and distinct.

A run ends in one of two ways:

- `Success`: the final tree, both scripts' placements, and the trace of tool calls.
- `Halt`: the reason, the tree as the halt left it, and the calls made so far.

## Model

| member | source | states |
|---|---|---|
| Strings.StartsWith | main.py:28 | `str.startswith`: true exactly when the prefix is no longer than the text and matches its first characters one by one. |
| Strings.EndsWith | main.py:37 | `str.endswith`: true exactly when the suffix is no longer than the text and matches its last characters one by one. |
| Strings.RemoveSuffix | main.py:113 | Stripping a suffix the name ends with leaves exactly the part before it; any other name is returned unchanged. |
| ReleaseVersion.MatchAt | main.py:22 | At one position, the pattern is tried with the greedy digit run. A reported digit count really matches there, and `None` means no digit count matches there. |
| ReleaseVersion.SearchFrom | main.py:22 | The match found from position `i` on starts at or after `i`, no match starts between `i` and it, and `None` means no match at any position from `i` on. |
| ReleaseVersion.Search | main.py:37 | `re.search`: the match found is the leftmost one, and none is found exactly when the pattern matches nowhere. |
| ReleaseVersion.MatchIsUnique | main.py:22 | At a given position at most one count of minor digits makes the pattern match, so group 1 is well defined. |
| ReleaseVersion.Version | main.py:118-123 | `match.group(1)`: a found version is "3." followed by zero to two digits. |
| ReleaseVersion.VersionIsLeftmostGroup | main.py:118-123 | The version is missing exactly when the pattern matches nowhere. Otherwise it is "3." plus the minor digits of the leftmost match. |
| ReleaseVersion.LeftmostIsUnique | main.py:22 | The leftmost match of a name, and with it the extracted release, is determined by the name. |
| ReleaseVersion.VersionSurvivesSuffix | main.py:113-118 | Appending any text to a name that carries a release never changes the release it resolves to, so an artifact name and its bundle name (the artifact name plus ".sigstore") agree. |
| ReleaseVersion.ExampleTarball | main.py:118-123 | `Python-3.10.4.tgz` resolves to release "3.10". |
| ReleaseVersion.ExampleThreeDigitMinor | main.py:22 | `x-3.100.tgz` has no release: a three-digit minor version does not match. |
| Policies.Lookup | main.py:126-128 | Indexing the table yields a policy exactly when the release is a key, and then it is that key's entry. A missing key is the fatal `KeyError`. |
| Policies.ExpectedCoverage | main.py:13-21 | The table covers exactly 3.7 to 3.13. 3.7 to 3.9 use the GitHub issuer and 3.10 to 3.13 the Google issuer. 3.7 is signed by nad@python.org, 3.8 and 3.9 by lukasz@langa.pl, 3.10 and 3.11 by pablogsal@python.org, 3.12 and 3.13 by thomas@python.org. |
| Policies.UncoveredReleases | main.py:126-128 | "3.6", "3.14" and the degenerate group "3." have no policy, so a bundle resolving to them stops the run. |
| Files.Line | main.py:62 | A script line ends in a newline. For plain paths the text before it has no newline and reads back as the placement it was written for. |
| Files.RenderAppend | main.py:86 | Each copy-loop iteration appends its placement's line: the script for the placements so far plus one more is the earlier script followed by that placement's line. |
| Files.ParseRender | main.py:51-62 | A script rendered from placements whose paths have no space, line break, or '/' in a name parses back into exactly those placements, in order, and nothing else. |
| Discovery.Discover | main.py:35-39 | A walked file is selected exactly when its name ends in ".sigstore" and the release search succeeds on it; nothing else is selected. |
| Discovery.DiscoverPreservesOrder | main.py:35-39 | Discovery over a concatenated walk is the concatenation of the discoveries, so bundles keep walk order. |
| Discovery.ArtifactOf | main.py:111-114 | The artifact sits in the bundle's directory, and its name followed by ".sigstore" is the bundle's name. |
| Discovery.ArtifactVersionAgrees | main.py:111-123 | If an artifact's name carries a release, its bundle is discovered, and the bundle's name carries the same release. |
| Discovery.BundleMatchWithoutArtifactMatch | main.py:118-122 | The converse fails. `x-3.1.sigstore` is discovered, but its artifact `x-3.1` has no release, so the run stops at it. |
| Phases.CopyAll | main.py:54-62 | The copy loop places the first bundles in order under their own names. A stop names the target of the bundle it stopped at, and a completed loop placed every bundle. No file disappears. |
| Phases.CopyAllFiles | main.py:57-59 | The files after the copy loop are exactly the files before it plus the copies it placed. |
| Phases.CopyAllKeepsContents | main.py:59 | Copying never overwrites an existing file, and every copy holds its original's content. |
| Phases.CopyAllSucceedsIff | main.py:57-58 | The copy loop completes exactly when the names are pairwise distinct and no target exists yet. A stop is at the first collision: the bundles copied before it were collision-free, and the bundle it stops at has a target that already exists or repeats an earlier bundle's name. |
| Phases.CopyPhase | main.py:47-62 | A copy phase places bundles in order. It completes exactly when no two bundles share a name and none has the script's name, and then it placed every bundle. A stop names the target of the bundle it stopped at. The script file then holds one `cp` line per copy made, as the interrupted loop left it. |
| Phases.CopyPhaseCopiedDistinct | main.py:54-58 | The bundles a copy phase copied, whether it completed or stopped, have pairwise distinct names and none has the script's name. |
| Phases.CopyPhaseStopsAtCollision | main.py:54-58 | A copy phase stops at the first collision: the bundle it stops at has the script's name or repeats the name of a bundle copied before it. |
| Phases.CopyPhaseKeepsTree | main.py:51-81 | For the backup loop and the working-copy loop alike: A copy phase never modifies a file that existed before it and adds files only inside its own directory. |
| Phases.CopyPhaseFiles | main.py:51-86 | For the backup loop and the working-copy loop alike, a copy phase creates only its script and a copy named after each bundle inside its own directory. |
| Phases.CopyPhaseComplete | main.py:54-84 | A completed copy phase placed every bundle, in order, at `dir/<name>`, holding the original's content. |
| Phases.RepairAll | main.py:90-102 | One repair call per working copy reached, in order. A stop names the copy just tried, and the set of files does not change. |
| Phases.RepairAllUpTo | main.py:90-102 | Copies the loop repaired hold the repair of their previous content. Copies not reached, and every other file, are unchanged. |
| Phases.RepairAllCompletesIff | main.py:102 | The repair loop completes exactly when the repair succeeds on every copy, and it stops at the first copy that fails. |
| Phases.PolicyFor | main.py:118-128 | An artifact has a policy exactly when its name carries a release and the table has that release as a key; the policy is that key's entry. |
| Phases.VerifyOne | main.py:111-147 | One bundle clears exactly when its artifact exists, carries a release, and has a policy, and the verifier accepts the working copy over that artifact under that policy. A verify call is made exactly when the artifact is a file and has a policy. The call is on the working copy, that artifact and that policy. |
| Phases.VerifyOneFailureCause | main.py:115-147 | A bundle's check fails with a missing artifact exactly when the artifact is not a file, with no version exactly when the artifact's name carries no release, with an unknown release (naming that release) exactly when the table has no entry for it, and with a verifier rejection exactly when the call was made and the bundle does not clear. |
| Phases.VerifyAll | main.py:106-147 | Verification calls are made one per bundle checked, in order. Each is on the bundle's working copy and its artifact, which is a file of the tree, under the artifact's policy. A stop is one of the verification failures. |
| Phases.VerifyAllSucceedsIff | main.py:106-147 | The verification loop completes exactly when every bundle clears. A stop names the first bundle that does not clear. |
| Migration.Confirmed | main.py:25-28 | A confirmation gate lets the run continue exactly when the reply is non-empty and starts with 'y'. |
| Migration.ScriptsAreNotBundles | main.py:51 | No discovered bundle can have the name of either script. |
| Migration.WorkingCopiesDistinct | main.py:79-84 | After the working-copy phase the working copies are distinct files of the tree, so the working-to-original mapping is injective. |
| Migration.Run | main.py:31-43 | The run stops with "no bundles" exactly when discovery is empty. An empty discovery or a refused first gate stops before any file is written or any tool called. |
| Migration.BackUp | main.py:45-66 | A backup collision or a refused second confirmation stops the run before any tool is called. The refusal stop happens exactly when the backup completed and the reply does not start with 'y'. |
| Migration.BackUpStop | main.py:51-66 | Such a stop leaves every earlier file unchanged, adds files only in the backup directory, and creates no working copy. |
| Migration.RunBackUpStop | main.py:45-66 | A run that stops in the backup phase calls no tool, leaves earlier files unchanged, and adds files only in the backup directory. |
| Migration.CopyToWorking | main.py:68-86 | The working-copy phase asks for no confirmation and passes the restore placements through to a success unchanged. |
| Migration.CopyToWorkingCollides | main.py:78-80 | From the working-copy phase on, the run stops on a name collision exactly when the working-copy phase collides. Repair and verification never report one. |
| Migration.CopyToWorkingStop | main.py:78-80 | A collision in the working-copy phase stops the run before any tool call, and the tree then differs from before only inside the working directory. |
| Migration.RepairThenVerify | main.py:88-151 | A stop is a failed repair or one of the verification failures. After a failed repair at most one call per working copy has been made. A success passes both scripts' placements through. |
| Migration.RepairThenVerifyCalls | main.py:88-147 | The last two phases call the tool in order: one repair per working copy, then, only after every repair, one verify call per bundle, each on a file artifact. A success makes two calls per bundle. |
| Migration.RepairThenVerifyStops | main.py:88-147 | The last two phases stop at the first failure. A repair failure happens exactly when some working copy's repair fails. It names the copy of the last call, whose repair failed while every earlier repair succeeded. A verification failure comes only after every repair succeeded, at a bundle `k` that does not pass while every earlier bundle passes, after all repairs and at most `k + 1` verify calls. |
| Migration.CopyToWorkingStops | main.py:68-147 | From the working-copy phase on, over bundles with distinct names, the run stops at the first failed repair or the first bundle that does not pass. This is judged against the tree before the copies were made. |
| Migration.BackUpStops | main.py:45-147 | From the backup phase on, past the second gate and with distinct names, the run stops at the first failure. This is judged against the tree before the run. |
| Migration.BackUpReachesRepair | main.py:54-80 | A repair or verification failure happens only past the second gate, when no two bundles share a name. |
| Migration.RunStopsAtFirstFailure | main.py:31-147 | A run that gets past both gates with distinct bundle names stops at the first failure. A repair failure happens exactly when some bundle's repair fails, and names the working copy of the first such bundle. A verification failure happens only after every repair succeeded, at the first bundle that does not pass, after at most one verify call per bundle up to it. |
| Migration.RunFailureReachesRepair | main.py:43-80 | A repair or verification failure happens only in a run that gets past both confirmations and whose bundles have distinct names. |
| Migration.RepairThenVerifyKeepsFiles | main.py:88-147 | Repair and verification neither create nor remove a file. |
| Migration.CopyToWorkingFiles | main.py:68-147 | From the working-copy phase on, the only new files are the apply script and a working copy named after each bundle. |
| Migration.BackUpFiles | main.py:45-147 | From the backup phase on, the only new files are the two scripts and the backup and working copies named after the bundles. |
| Migration.RunVerifiesExistingArtifacts | main.py:111-147 | Every verify call of a run names an artifact that was a file of the tree before the run. |
| Migration.RunKeepsOriginals | main.py:31-151 | Whatever the outcome, no pre-existing file, bundle or artifact is modified. The only new files are the restore script, the apply script, and the backup and working copies named after discovered bundles, each in its own temporary directory. |
| Migration.RunSucceedsIffAllPass | main.py:149-151 | The apply script is announced exactly when some bundles were found, both gates were confirmed, no two bundles share a name, and every bundle repairs and then verifies against its original artifact under its release's policy. |
| Migration.RunCallOrder | main.py:88-147 | Whatever the outcome, the working copies are repaired first, in discovery order. Verify calls come only after every repair, one per bundle in order. Each is on the working copy, the original's artifact, which is a file of the final tree, and the release's policy. A success makes exactly two calls per bundle. |
| Migration.RunRestoreState | main.py:47-62 | After a success, the restore script lists `cp <backup_dir/name> <original>` for every bundle in discovery order, and every backup holds its original's content. |
| Migration.RunApplyState | main.py:68-102 | After a success, the apply script lists `cp <working_dir/name> <original>` for every bundle in discovery order, and every working copy holds the repaired content of its original. |
| Migration.RunRestoreReadsBack | main.py:62 | After a success with plain paths, the restore script text reads back as exactly the placements the run reports. |
| Migration.RunApplyReadsBack | main.py:86 | After a success with plain paths, the apply script text reads back as exactly the placements the run reports. |
| Migration.BackUpSucceedsIff | main.py:47-66 | From the backup phase on, the run succeeds exactly when the second gate is confirmed, the names are distinct, and every bundle repairs and passes. |
| Migration.CopyToWorkingSucceedsIff | main.py:68-147 | From the working-copy phase on, the run succeeds exactly when the names are distinct and every bundle repairs and passes. |
| Migration.RepairThenVerifySucceedsIff | main.py:88-147 | The last two phases succeed exactly when every working copy repairs and its repaired content verifies. |

## Left out

- File-system I/O: `os.walk`, `tempfile.mkdtemp`, `shutil.copyfile` and file open, truncate and write. They are operations on the abstract tree. The walk is a given sequence of paths, and the two temporary directories are parameters the environment guarantees to be new and distinct.
- The external `sigstore` tools and `subprocess.check_call`. They are injected functions: repair maps content to optional repaired content, and verify is a predicate.
- A failed repair leaves its working copy as it was. Partial writes by a failing tool are not modelled.
- The program's own interpreter path (`sys.executable`) and the exact argument vectors are not modelled. A tool call is recorded as the paths and the policy it is given.
- Printed text is left out, including the sorted listing of the discovered bundles (main.py:42), which does not affect processing order. Prompts reduce to "the reply starts with 'y'".
- Exceptions and exit codes: a failing `assert`, `KeyError`, `exit(1)` and a non-zero tool exit all become one `Halt` outcome carrying a reason.
- Running Python with `-O` is not modelled. That mode would skip the asserts, including the collision checks.
- Shell semantics of the generated scripts are not modelled: quoting, and paths with spaces. The read-back theorems are stated only for paths with no space or line break and no '/' in a name.
- Path normalisation by `pathlib`: a path is the pair of the walked directory string and the file name.
- Python `re` semantics in general are not modelled. Only this one pattern is, as a scanner over characters; `[0-9]` means the ASCII digits.
- Migration.Admissible: the run requires the walk to list files of the tree and the temporary directories to be fresh. These are guarantees of `os.walk` and `mkdtemp`, not checks the script makes.
- Discovery is a function of the walk, so discovering twice over the same tree gives the same list. No separate lemma states this.
- Discovered bundles are processed in walk order. Only the printed listing (main.py:42) is sorted, and duplicates are not removed.
- The release pattern also accepts an empty minor version (`-3..`). The resulting release "3." has no policy, so the run halts there.

=== FILE: discovery.dfy ===
/**
 * Finding the Sigstore bundles in the walked tree, and deriving each bundle's
 * artifact from its path.
 */
module Discovery {
  import opened Optional
  import opened Strings
  import opened ReleaseVersion
  import opened Files

  const BundleSuffix: string := ".sigstore"

  /** A walked file is a bundle when its name ends in ".sigstore" and carries a release version. */
  predicate IsBundleName(name: string)
  {
    EndsWith(name, BundleSuffix) && Version(name).Some?
  }

  /**
   * The bundles among the walked files, in walk order: each walked path is kept
   * exactly when its name is a bundle name.
   */
  function Discover(walk: seq<Path>): (r: seq<Path>)
    ensures forall p :: p in r <==> p in walk && IsBundleName(p.name)
    ensures |r| <= |walk|
  {
    if |walk| == 0 then []
    else if IsBundleName(walk[0].name) then [walk[0]] + Discover(walk[1..])
    else Discover(walk[1..])
  }

  /** Discovery of a concatenated walk is the concatenation of the discoveries: walk order is kept. */
  lemma {:induction false} DiscoverPreservesOrder(a: seq<Path>, b: seq<Path>)
    ensures Discover(a + b) == Discover(a) + Discover(b)
  {
    if |a| > 0 {
      assert (a + b)[0] == a[0];
      assert (a + b)[1..] == a[1..] + b;
      DiscoverPreservesOrder(a[1..], b);
    } else {
      assert a + b == b;
    }
  }

  /** The signed artifact beside a bundle: the same directory, the name without ".sigstore". */
  function ArtifactOf(bundle: Path): (a: Path)
    ensures a.dir == bundle.dir
    ensures EndsWith(bundle.name, BundleSuffix) ==> a.name + BundleSuffix == bundle.name
  {
    Path(bundle.dir, RemoveSuffix(bundle.name, BundleSuffix))
  }

  /**
   * When the artifact's name carries a release, the bundle's name carries the very
   * same release: a bundle whose artifact resolves is always discovered, and the
   * version it was discovered by is the version its policy is looked up by.
   */
  lemma ArtifactVersionAgrees(bundle: Path)
    requires EndsWith(bundle.name, BundleSuffix)
    requires Version(ArtifactOf(bundle).name).Some?
    ensures IsBundleName(bundle.name)
    ensures Version(ArtifactOf(bundle).name) == Version(bundle.name)
  {
    VersionSurvivesSuffix(ArtifactOf(bundle).name, BundleSuffix);
  }

  /**
   * The converse fails: in `x-3.1.sigstore` the pattern's closing '.' is the one that
   * starts ".sigstore", so the bundle is discovered while its artifact `x-3.1` has no
   * release and the run stops at that bundle.
   */
  lemma BundleMatchWithoutArtifactMatch()
    ensures IsBundleName("x-3.1.sigstore")
    ensures Version(ArtifactOf(Path("d", "x-3.1.sigstore")).name).None?
  {
    var s := "x-3.1.sigstore";
    assert MatchesAt(s, 1, 1);
    assert ArtifactOf(Path("d", s)).name == "x-3.1";
  }
}

=== FILE: files.dfy ===
/**
 * The abstract file tree and the generated shell scripts.
 *
 * A path is a directory plus a file name, as `pathlib.Path(root) / filename` builds it;
 * the tree is a finite map from paths to contents. A script is the ordered list of
 * `cp <copy> <original>` commands, and its file holds that list rendered as text.
 */
module Files {
  import opened Optional
  import opened Strings

  datatype Path = Path(dir: string, name: string)

  type Content = string

  type FS = map<Path, Content>

  /** One copy of an original bundle: a backup or a working copy. */
  datatype Placement = Placement(copy: Path, original: Path)

  /** `str(path)` */
  function Show(p: Path): (r: string)
  {
    p.dir + "/" + p.name
  }

  /**
   * The script line `cp <copy> <original>` that puts the copy back over the original.
   * It ends in its one newline and, for plain paths, reads back as the placement.
   */
  function Line(pl: Placement): (l: string)
    ensures |l| > 0 && l[|l| - 1] == '\n'
    ensures Plain(pl.copy) && Plain(pl.original) ==> '\n' !in l[..|l| - 1] && ParseLine(l[..|l| - 1]) == Some(pl)
  {
    var command := "cp " + Show(pl.copy) + " " + Show(pl.original);
    assert Plain(pl.copy) && Plain(pl.original) ==> '\n' !in command && ParseLine(command) == Some(pl) by {
      if Plain(pl.copy) && Plain(pl.original) {
        ParseCommand(pl.copy, pl.original);
      }
    }
    assert (command + "\n")[..|command|] == command;
    command + "\n"
  }

  /** The text of a script file: one line per placement, in order. */
  function Render(ps: seq<Placement>): (r: string)
  {
    if |ps| == 0 then "" else Line(ps[0]) + Render(ps[1..])
  }

  /**
   * Each iteration of a copy loop appends its placement's line to what the earlier
   * iterations wrote: the script of `ps + [pl]` is the script of `ps` and then
   * `pl`'s line.
   */
  lemma {:induction false} RenderAppend(ps: seq<Placement>, pl: Placement)
    ensures Render(ps + [pl]) == Render(ps) + Line(pl)
  {
    if |ps| == 0 {
      assert ps + [pl] == [pl];
      assert [pl][1..] == [];
    } else {
      RenderAppend(ps[1..], pl);
      assert (ps + [pl])[1..] == ps[1..] + [pl];
    }
  }

  /** The copy paths of a list of placements, in order (a dictionary's `keys()`). */
  function Copies(ps: seq<Placement>): (r: seq<Path>)
    ensures |r| == |ps| && forall i :: 0 <= i < |ps| ==> r[i] == ps[i].copy
  {
    seq(|ps|, i requires 0 <= i < |ps| => ps[i].copy)
  }

  /** The copy paths of a list of placements, as a set. */
  function CopySet(ps: seq<Placement>): (r: set<Path>)
    ensures forall i :: 0 <= i < |ps| ==> ps[i].copy in r
    ensures forall p :: p in r ==> exists i :: 0 <= i < |ps| && ps[i].copy == p
  {
    set i | 0 <= i < |ps| :: ps[i].copy
  }

  lemma CopySetAppend(ps: seq<Placement>, pl: Placement)
    ensures CopySet(ps + [pl]) == CopySet(ps) + {pl.copy}
  {
    var q := ps + [pl];
    forall p | p in CopySet(q)
      ensures p in CopySet(ps) + {pl.copy}
    {
      var i :| 0 <= i < |q| && q[i].copy == p;
      if i < |ps| {
        assert q[i] == ps[i];
      }
    }
    forall p | p in CopySet(ps)
      ensures p in CopySet(q)
    {
      var i :| 0 <= i < |ps| && ps[i].copy == p;
      assert q[i] == ps[i];
    }
    assert q[|ps|] == pl;
  }

  /** No directory in the tree is `dir`: what `tempfile.mkdtemp` guarantees of the directory it creates. */
  ghost predicate Fresh(fs: FS, dir: string)
  {
    forall p :: p in fs ==> p.dir != dir
  }

  /** A path whose text form can be split back into directory and name, and embedded in a script line. */
  ghost predicate Plain(p: Path)
  {
    ' ' !in p.dir && '\n' !in p.dir && ' ' !in p.name && '\n' !in p.name && '/' !in p.name
  }

  /** Index of the first `c` in `s`, or `|s|` when there is none. */
  function IndexOf(s: string, c: char): (i: nat)
    ensures i <= |s|
    ensures i < |s| ==> s[i] == c
    ensures c !in s[..i]
  {
    if |s| == 0 then 0
    else if s[0] == c then 0
    else
      var j := IndexOf(s[1..], c);
      assert s[..j + 1] == [s[0]] + s[1..][..j];
      1 + j
  }

  /** Index of the last `c` in `s`, or `|s|` when there is none. */
  function LastIndexOf(s: string, c: char): (i: nat)
    ensures i <= |s|
    ensures i < |s| ==> s[i] == c && c !in s[i + 1..]
    ensures i == |s| ==> c !in s
  {
    if |s| == 0 then 0
    else if s[|s| - 1] == c then |s| - 1
    else
      var j := LastIndexOf(s[..|s| - 1], c);
      if j == |s| - 1 then
        assert s == s[..|s| - 1] + [s[|s| - 1]];
        |s|
      else
        assert s[j + 1..] == s[..|s| - 1][j + 1..] + [s[|s| - 1]];
        j
  }

  /** Reads `dir/name` back, splitting at the last '/'. */
  function ParsePath(t: string): (r: Option<Path>)
  {
    var i := LastIndexOf(t, '/');
    if i == |t| then None else Some(Path(t[..i], t[i + 1..]))
  }

  /** Reads one script line without its newline. */
  function ParseLine(l: string): (r: Option<Placement>)
  {
    if !StartsWith(l, "cp ") then None
    else
      var rest := l[3..];
      var i := IndexOf(rest, ' ');
      if i == |rest| then None
      else
        match (ParsePath(rest[..i]), ParsePath(rest[i + 1..]))
        case (Some(from), Some(to)) => Some(Placement(from, to))
        case _ => None
  }

  /** Reads a script file back into its placements. */
  function Parse(t: string): (r: Option<seq<Placement>>)
    decreases |t|
  {
    if |t| == 0 then Some([])
    else
      var i := IndexOf(t, '\n');
      if i == |t| then None
      else
        match (ParseLine(t[..i]), Parse(t[i + 1..]))
        case (Some(pl), Some(rest)) => Some([pl] + rest)
        case _ => None
  }

  lemma IndexOfSplit(a: string, c: char, b: string)
    requires c !in a
    ensures IndexOf(a + [c] + b, c) == |a|
    decreases |a|
  {
    if |a| > 0 {
      assert (a + [c] + b)[1..] == a[1..] + [c] + b;
      IndexOfSplit(a[1..], c, b);
    }
  }

  lemma LastIndexOfSplit(a: string, c: char, b: string)
    requires c !in b
    ensures LastIndexOf(a + [c] + b, c) == |a|
    decreases |b|
  {
    if |b| > 0 {
      var s := a + [c] + b;
      assert s[..|s| - 1] == a + [c] + b[..|b| - 1];
      LastIndexOfSplit(a, c, b[..|b| - 1]);
    }
  }

  lemma ParseShow(p: Path)
    requires Plain(p)
    ensures ParsePath(Show(p)) == Some(p)
  {
    assert Show(p) == p.dir + ['/'] + p.name;
    LastIndexOfSplit(p.dir, '/', p.name);
    assert Show(p)[..|p.dir|] == p.dir;
    assert Show(p)[|p.dir| + 1..] == p.name;
  }

  /** A `cp` command over two plain paths has no newline and reads back as their placement. */
  lemma ParseCommand(copy: Path, original: Path)
    requires Plain(copy) && Plain(original)
    ensures var l := "cp " + Show(copy) + " " + Show(original);
      '\n' !in l && ParseLine(l) == Some(Placement(copy, original))
  {
    var a, b := Show(copy), Show(original);
    var l := "cp " + a + " " + b;
    assert '\n' !in a && '\n' !in b;
    assert StartsWith(l, "cp ");
    var rest := l[3..];
    assert rest == a + [' '] + b;
    IndexOfSplit(a, ' ', b);
    assert rest[..|a|] == a;
    assert rest[|a| + 1..] == b;
    ParseShow(copy);
    ParseShow(original);
    assert ParseLine(l) == Some(Placement(copy, original));
    assert '\n' !in l by {
      assert l == "cp " + a + [' '] + b;
      assert '\n' !in "cp ";
    }
  }

  /** Parsing a plain placement's line followed by a script reads the placement, then the script. */
  lemma ParseAfterLine(pl: Placement, rest: string, more: seq<Placement>)
    requires Plain(pl.copy) && Plain(pl.original)
    requires Parse(rest) == Some(more)
    ensures Parse(Line(pl) + rest) == Some([pl] + more)
  {
    var l := Line(pl);
    var command := l[..|l| - 1];
    assert l + rest == command + ['\n'] + rest;
    ParseFirstLine(command, rest);
  }

  /** Parsing text that starts with a newline-free line reads that line, then the rest. */
  lemma ParseFirstLine(body: string, rest: string)
    requires '\n' !in body
    ensures Parse(body + ['\n'] + rest) == match (ParseLine(body), Parse(rest))
      case (Some(pl), Some(more)) => Some([pl] + more)
      case _ => None
  {
    var t := body + ['\n'] + rest;
    IndexOfSplit(body, '\n', rest);
    assert t[..|body|] == body;
    assert t[|body| + 1..] == rest;
  }

  /**
   * A script can be read back line by line into exactly the placements it was
   * rendered from, provided no path contains a space or newline and no name a '/'.
   */
  lemma {:induction false} ParseRender(ps: seq<Placement>)
    requires forall i :: 0 <= i < |ps| ==> Plain(ps[i].copy) && Plain(ps[i].original)
    ensures Parse(Render(ps)) == Some(ps)
  {
    if |ps| > 0 {
      ParseRender(ps[1..]);
      ParseAfterLine(ps[0], Render(ps[1..]), ps[1..]);
      assert [ps[0]] + ps[1..] == ps;
    }
  }
}

=== FILE: migration.dfy ===
/**
 * The migration run as a whole: discover the bundles, confirm, back them up with a
 * restore script, confirm, make working copies with an apply script, repair every
 * working copy, then resolve each bundle's policy and verify its repaired copy
 * against the original artifact. Any failure stops the run; only a run in which
 * every bundle cleared every step announces the apply script.
 */
module Migration {
  import opened Optional
  import opened Strings
  import opened ReleaseVersion
  import opened Policies
  import opened Files
  import opened Discovery
  import opened Phases

  const RestoreScript: string := "restore-backup.sh"
  const ApplyScript: string := "apply-changes.sh"

  /**
   * Everything the run consumes from its environment: the tree, the order the walk
   * visits its files in, the operator's two replies, the two directories `mkdtemp`
   * creates, and the external repair and verify tools.
   */
  datatype Env = Env(
    fs: FS,
    walk: seq<Path>,
    discoveryReply: string,
    backupReply: string,
    backupDir: string,
    workingDir: string,
    repair: Content -> Option<Content>,
    verify: (Content, Content, string, string) -> bool)

  /**
   * What the environment guarantees: the walk lists files of the tree, and the two
   * temporary directories are new and distinct.
   */
  ghost predicate Admissible(env: Env)
  {
    && (forall i :: 0 <= i < |env.walk| ==> env.walk[i] in env.fs)
    && Fresh(env.fs, env.backupDir)
    && Fresh(env.fs, env.workingDir)
    && env.backupDir != env.workingDir
  }

  /** How a run ends: announcing the apply script, or stopping, with the tree and the tool calls made so far. */
  datatype Outcome =
    | Success(fs: FS, restore: seq<Placement>, apply: seq<Placement>, calls: seq<Call>)
    | Halt(reason: Failure, fs: FS, calls: seq<Call>)

  /** A confirmation gate lets the run continue only on a reply that starts with 'y'. */
  function Confirmed(reply: string): (proceed: bool)
    ensures proceed <==> |reply| > 0 && reply[0] == 'y'
  {
    StartsWith(reply, "y")
  }

  /** Bundle names end in ".sigstore", so no bundle can take a script's name. */
  lemma ScriptsAreNotBundles(bs: seq<Path>)
    requires forall i :: 0 <= i < |bs| ==> IsBundleName(bs[i].name)
    ensures forall i :: 0 <= i < |bs| ==> bs[i].name != RestoreScript && bs[i].name != ApplyScript
  {
    assert !EndsWith(RestoreScript, BundleSuffix);
    assert !EndsWith(ApplyScript, BundleSuffix);
  }

  /** Every discovered bundle satisfies the discovery filter and is a file of the tree. */
  lemma DiscoveredAreBundles(env: Env)
    requires Admissible(env)
    ensures forall i :: 0 <= i < |Discover(env.walk)| ==> Discover(env.walk)[i] in env.fs && IsBundleName(Discover(env.walk)[i].name)
  {
    var bs := Discover(env.walk);
    forall i | 0 <= i < |bs|
      ensures bs[i] in env.fs && IsBundleName(bs[i].name)
    {
      assert bs[i] in bs;
    }
  }

  /** The tree after the backup phase still holds every bundle and leaves the working directory free. */
  lemma AfterBackup(fs: FS, bs: seq<Path>, backupDir: string, workingDir: string)
    requires forall i :: 0 <= i < |bs| ==> bs[i] in fs
    requires Fresh(fs, backupDir) && Fresh(fs, workingDir) && backupDir != workingDir
    ensures var backup := CopyPhase(fs, bs, backupDir, RestoreScript);
      && (forall i :: 0 <= i < |bs| ==> bs[i] in backup.fs)
      && Fresh(backup.fs, workingDir)
  {
    CopyPhaseKeepsTree(fs, bs, backupDir, RestoreScript);
  }

  /** The working copies are distinct files of the tree once the working-copy phase has completed. */
  lemma WorkingCopiesDistinct(fs: FS, bs: seq<Path>, dir: string)
    requires forall i :: 0 <= i < |bs| ==> bs[i] in fs
    requires Fresh(fs, dir)
    requires CopyPhase(fs, bs, dir, ApplyScript).Copied?
    ensures var working := CopyPhase(fs, bs, dir, ApplyScript);
      var ws := Copies(working.placed);
      && (forall i :: 0 <= i < |ws| ==> ws[i] in working.fs)
      && Distinct(ws)
  {
    CopyPhaseCopiesContents(fs, bs, dir, ApplyScript);
  }

  /**
   * The migration script's `main`. Phases run strictly one after another and the
   * first failure stops the run, leaving the tree as it stands at that point.
   */
  function Run(env: Env): (r: Outcome)
    requires Admissible(env)
    ensures r.Halt? && r.reason == NoBundles <==> |Discover(env.walk)| == 0
    ensures |Discover(env.walk)| == 0 || !Confirmed(env.discoveryReply) ==> r.Halt? && r.fs == env.fs && r.calls == []
  {
    var bundles := Discover(env.walk);
    if |bundles| == 0 then Halt(NoBundles, env.fs, [])
    else if !Confirmed(env.discoveryReply) then Halt(NotConfirmed(1), env.fs, [])
    else
      DiscoveredAreBundles(env);
      BackUp(env, bundles)
  }

  /**
   * The backup phase and the confirmation after it. A backup collision or a refused
   * second confirmation stops the run before any tool is called; the refusal stop
   * happens exactly when the backup completed and the reply was not 'y'.
   */
  function BackUp(env: Env, bundles: seq<Path>): (r: Outcome)
    requires Admissible(env)
    requires forall i :: 0 <= i < |bundles| ==> bundles[i] in env.fs && IsBundleName(bundles[i].name)
    ensures r.Halt? ==> r.reason != NoBundles
    ensures var backup := CopyPhase(env.fs, bundles, env.backupDir, RestoreScript);
      backup.Collided? || !Confirmed(env.backupReply) ==> r.Halt? && r.calls == []
    ensures r.Halt? && r.reason == NotConfirmed(2) <==>
      CopyPhase(env.fs, bundles, env.backupDir, RestoreScript).Copied? && !Confirmed(env.backupReply)
  {
    var backup := CopyPhase(env.fs, bundles, env.backupDir, RestoreScript);
    if backup.Collided? then Halt(NameCollision(backup.at), backup.fs, [])
    else if !Confirmed(env.backupReply) then Halt(NotConfirmed(2), backup.fs, [])
    else
      AfterBackup(env.fs, bundles, env.backupDir, env.workingDir);
      CopyToWorking(env, bundles, backup.fs, backup.placed)
  }

  /**
   * A stop in the backup phase, on a name collision or a refused second confirmation,
   * makes no tool call and writes nothing outside the backup directory: no working
   * copy exists.
   */
  lemma BackUpStop(env: Env, bundles: seq<Path>)
    requires Admissible(env)
    requires forall i :: 0 <= i < |bundles| ==> bundles[i] in env.fs && IsBundleName(bundles[i].name)
    ensures var backup := CopyPhase(env.fs, bundles, env.backupDir, RestoreScript);
      var r := BackUp(env, bundles);
      backup.Collided? || !Confirmed(env.backupReply) ==>
        && r.Halt? && r.calls == []
        && (if backup.Collided? then r.reason == NameCollision(backup.at) else r.reason == NotConfirmed(2))
        && (forall p :: p in env.fs ==> p in r.fs && r.fs[p] == env.fs[p])
        && (forall p :: p in r.fs ==> p in env.fs || p.dir == env.backupDir)
        && (forall p :: p in r.fs ==> p.dir != env.workingDir)
  {
    CopyPhaseKeepsTree(env.fs, bundles, env.backupDir, RestoreScript);
  }

  /**
   * The working-copy phase. It asks for no confirmation, and it passes the restore
   * script's placements through to a success unchanged.
   */
  function CopyToWorking(env: Env, bundles: seq<Path>, fs: FS, restore: seq<Placement>): (r: Outcome)
    requires forall i :: 0 <= i < |bundles| ==> bundles[i] in fs
    requires Fresh(fs, env.workingDir)
    ensures r.Halt? ==> r.reason != NoBundles && !r.reason.NotConfirmed?
    ensures r.Success? ==> r.restore == restore
  {
    var working := CopyPhase(fs, bundles, env.workingDir, ApplyScript);
    assert working.Copied? ==> WorkingCopiesReady(working) by {
      if working.Copied? {
        WorkingCopiesDistinct(fs, bundles, env.workingDir);
      }
    }
    AfterWorkingCopies(env, working, restore)
  }

  /** The working copies are distinct files of the tree the working-copy phase left. */
  ghost predicate WorkingCopiesReady(working: CopyResult)
  {
    && (forall i :: 0 <= i < |working.placed| ==> working.placed[i].copy in working.fs)
    && Distinct(Copies(working.placed))
  }

  /** What follows the working-copy phase: a collision stops the run, otherwise the copies are repaired and verified. */
  function AfterWorkingCopies(env: Env, working: CopyResult, restore: seq<Placement>): (r: Outcome)
    requires working.Copied? ==> WorkingCopiesReady(working)
    ensures r.Halt? ==> r.reason != NoBundles && !r.reason.NotConfirmed?
    ensures r.Halt? && r.reason.NameCollision? <==> working.Collided?
    ensures r.Success? ==> r.restore == restore
  {
    if working.Collided? then Halt(NameCollision(working.at), working.fs, [])
    else RepairThenVerify(env, working.fs, restore, working.placed)
  }

  /** From the working-copy phase on, the run stops on a name collision exactly when the working-copy phase collides. */
  lemma CopyToWorkingCollides(env: Env, bundles: seq<Path>, fs: FS, restore: seq<Placement>)
    requires forall i :: 0 <= i < |bundles| ==> bundles[i] in fs
    requires Fresh(fs, env.workingDir)
    ensures var r := CopyToWorking(env, bundles, fs, restore);
      r.Halt? && r.reason.NameCollision? <==> CopyPhase(fs, bundles, env.workingDir, ApplyScript).Collided?
  {
    var working := CopyPhase(fs, bundles, env.workingDir, ApplyScript);
    assert working.Copied? ==> WorkingCopiesReady(working) by {
      if working.Copied? {
        WorkingCopiesDistinct(fs, bundles, env.workingDir);
      }
    }
    assert CopyToWorking(env, bundles, fs, restore) == AfterWorkingCopies(env, working, restore);
  }

  /** A collision in the working-copy phase stops the run before any tool call, with the tree changed only inside the working directory. */
  lemma CopyToWorkingStop(env: Env, bundles: seq<Path>, fs: FS, restore: seq<Placement>)
    requires forall i :: 0 <= i < |bundles| ==> bundles[i] in fs
    requires Fresh(fs, env.workingDir)
    requires CopyPhase(fs, bundles, env.workingDir, ApplyScript).Collided?
    ensures var r := CopyToWorking(env, bundles, fs, restore);
      && r.Halt? && r.calls == []
      && (forall p :: p in fs ==> p in r.fs && r.fs[p] == fs[p])
      && (forall p :: p in r.fs ==> p in fs || p.dir == env.workingDir)
  {
    CopyPhaseKeepsTree(fs, bundles, env.workingDir, ApplyScript);
  }

  /**
   * Repair every working copy, then resolve each bundle's policy and verify it. A stop
   * is a failed repair or one of the verification loop's failures; after a failed
   * repair at most one call per working copy has been made, so by `CallsFollow` all of
   * them are repairs.
   */
  function RepairThenVerify(env: Env, fs: FS, restore: seq<Placement>, apply: seq<Placement>): (r: Outcome)
    requires forall i :: 0 <= i < |apply| ==> apply[i].copy in fs
    requires Distinct(Copies(apply))
    ensures r.Halt? ==> r.reason.RepairFailed? || IsVerifyPhaseFailure(r.reason)
    ensures r.Halt? && r.reason.RepairFailed? ==> 0 < |r.calls| <= |apply|
    ensures r.Success? ==> r.restore == restore && r.apply == apply
  {
    var repaired := RepairAll(fs, Copies(apply), env.repair);
    if repaired.RepairHalted? then Halt(RepairFailed(repaired.at), repaired.fs, repaired.calls)
    else
      match VerifyAll(repaired.fs, apply, env.verify, Expected)
      case VerifyHalted(calls, reason, _) => Halt(reason, repaired.fs, repaired.calls + calls)
      case Verified(calls) => Success(repaired.fs, restore, apply, repaired.calls + calls)
  }

  /** `fs2` differs from `fs1` only inside `dir`: files elsewhere are kept unchanged and new files appear only in `dir`. */
  ghost predicate OnlyWritesIn(fs1: FS, fs2: FS, dir: string)
  {
    && (forall p :: p in fs1 && p.dir != dir ==> p in fs2 && fs2[p] == fs1[p])
    && (forall p :: p in fs2 ==> p in fs1 || p.dir == dir)
  }

  /**
   * Bundle `b`, whose repair gave `repaired`, passes against the tree `fs`: the repair
   * succeeded, its artifact is a file, the artifact's name carries a release, the
   * configured table has a policy for it, and the verifier accepts the repaired
   * bundle over the artifact under that policy.
   */
  ghost predicate Passes(env: Env, fs: FS, b: Path, repaired: Option<Content>)
  {
    var artifact := ArtifactOf(b);
    && repaired.Some?
    && artifact in fs
    && match Version(artifact.name)
       case None => false
       case Some(release) =>
         && release in Expected
         && env.verify(repaired.value, fs[artifact], Expected[release].issuer, Expected[release].identity)
  }

  /** Every bundle's content repairs, and the repaired bundle passes against `fs`. */
  ghost predicate AllRepairAndPass(env: Env, fs: FS, bs: seq<Path>)
  {
    forall i :: 0 <= i < |bs| ==>
      && bs[i] in fs
      && Passes(env, fs, bs[i], env.repair(fs[bs[i]]))
  }

  /**
   * The condition for announcing the apply script, stated over the tree as it was
   * before the run: some bundles were found, both gates were confirmed, no two
   * bundles share a name, and every bundle repairs and then verifies against its
   * original artifact under its release's policy.
   */
  ghost predicate AllPass(env: Env)
  {
    var bs := Discover(env.walk);
    && |bs| > 0
    && Confirmed(env.discoveryReply)
    && Confirmed(env.backupReply)
    && DistinctNames(bs)
    && AllRepairAndPass(env, env.fs, bs)
  }

  lemma PassesUnderWrites(env: Env, fs1: FS, fs2: FS, dir: string, b: Path, repaired: Option<Content>)
    requires OnlyWritesIn(fs1, fs2, dir) && b.dir != dir
    ensures Passes(env, fs1, b, repaired) <==> Passes(env, fs2, b, repaired)
  {
  }

  /** Whether a run stopped at the first failure is judged the same against a tree and one written only in `dir`, away from the bundles. */
  lemma StopsUnderWrites(env: Env, before: FS, after: FS, dir: string, bs: seq<Path>, contents: seq<Content>, copies: seq<Path>, r: Outcome)
    requires |contents| == |bs| && |copies| == |bs|
    requires OnlyWritesIn(before, after, dir)
    requires forall i :: 0 <= i < |bs| ==> bs[i].dir != dir
    requires StopsAtFirstFailure(env, after, bs, contents, copies, r)
    ensures StopsAtFirstFailure(env, before, bs, contents, copies, r)
  {
    forall i, repaired: Option<Content> | 0 <= i < |bs|
      ensures Passes(env, before, bs[i], repaired) <==> Passes(env, after, bs[i], repaired)
    {
      PassesUnderWrites(env, before, after, dir, bs[i], repaired);
    }
    if r.Halt? && IsVerifyPhaseFailure(r.reason) {
      var k :| FirstFailingBundle(env, after, bs, contents, k) && |bs| + k <= |r.calls| <= |bs| + k + 1;
      assert FirstFailingBundle(env, before, bs, contents, k);
    }
  }

  lemma AllRepairAndPassUnderWrites(env: Env, fs1: FS, fs2: FS, dir: string, bs: seq<Path>)
    requires OnlyWritesIn(fs1, fs2, dir)
    requires forall i :: 0 <= i < |bs| ==> bs[i] in fs1 && bs[i].dir != dir
    ensures AllRepairAndPass(env, fs1, bs) <==> AllRepairAndPass(env, fs2, bs)
  {
    forall i | 0 <= i < |bs|
      ensures Passes(env, fs1, bs[i], env.repair(fs1[bs[i]])) <==> Passes(env, fs2, bs[i], env.repair(fs1[bs[i]]))
    {
      PassesUnderWrites(env, fs1, fs2, dir, bs[i], env.repair(fs1[bs[i]]));
    }
  }

  /** A repaired working copy clears verification exactly when its bundle passes against the tree before repair. */
  lemma ClearsAfterRepair(env: Env, fs: FS, repaired: FS, pl: Placement)
    requires pl.copy in fs && pl.copy in repaired
    requires env.repair(fs[pl.copy]) == Some(repaired[pl.copy])
    requires ArtifactOf(pl.original) in fs <==> ArtifactOf(pl.original) in repaired
    requires ArtifactOf(pl.original) in fs ==> repaired[ArtifactOf(pl.original)] == fs[ArtifactOf(pl.original)]
    ensures Clears(repaired, pl, env.verify, Expected) <==> Passes(env, fs, pl.original, env.repair(fs[pl.copy]))
  {
  }

  /** The last two phases write only working copies, which live in the working directory. */
  lemma RepairThenVerifyWrites(env: Env, fs: FS, restore: seq<Placement>, apply: seq<Placement>)
    requires forall i :: 0 <= i < |apply| ==> apply[i].copy in fs
    requires Distinct(Copies(apply))
    requires forall i :: 0 <= i < |apply| ==> apply[i].copy.dir == env.workingDir
    ensures OnlyWritesIn(fs, RepairThenVerify(env, fs, restore, apply).fs, env.workingDir)
  {
    var ws := Copies(apply);
    RepairAllUpTo(fs, ws, env.repair);
    assert forall p :: p in ws ==> p.dir == env.workingDir;
  }

  /** The last two phases succeed exactly when every working copy repairs and passes verification. */
  lemma RepairThenVerifySucceedsIff(env: Env, fs: FS, restore: seq<Placement>, apply: seq<Placement>)
    requires forall i :: 0 <= i < |apply| ==> apply[i].copy in fs
    requires Distinct(Copies(apply))
    requires forall i :: 0 <= i < |apply| ==> apply[i].copy.dir == env.workingDir && apply[i].original.dir != env.workingDir
    ensures RepairThenVerify(env, fs, restore, apply).Success? <==>
      forall i :: 0 <= i < |apply| ==> Passes(env, fs, apply[i].original, env.repair(fs[apply[i].copy]))
  {
    var ws := Copies(apply);
    RepairAllCompletesIff(fs, ws, env.repair);
    var repaired := RepairAll(fs, ws, env.repair);
    if repaired.Repaired? {
      VerifyAllSucceedsIff(repaired.fs, apply, env.verify, Expected);
      forall i | 0 <= i < |apply|
        ensures Clears(repaired.fs, apply[i], env.verify, Expected) <==> Passes(env, fs, apply[i].original, env.repair(fs[apply[i].copy]))
      {
        RepairedClearsIffPasses(env, fs, apply, i);
      }
    } else {
      var j :| 0 <= j < |ws| && env.repair(fs[ws[j]]).None?;
      assert !Passes(env, fs, apply[j].original, env.repair(fs[apply[j].copy]));
    }
  }

  /** After a completed repair loop, a working copy clears verification exactly when its bundle passes. */
  lemma RepairedClearsIffPasses(env: Env, fs: FS, apply: seq<Placement>, i: nat)
    requires forall i :: 0 <= i < |apply| ==> apply[i].copy in fs
    requires Distinct(Copies(apply))
    requires forall i :: 0 <= i < |apply| ==> apply[i].copy.dir == env.workingDir && apply[i].original.dir != env.workingDir
    requires i < |apply| && RepairAll(fs, Copies(apply), env.repair).Repaired?
    ensures Clears(RepairAll(fs, Copies(apply), env.repair).fs, apply[i], env.verify, Expected) <==>
      Passes(env, fs, apply[i].original, env.repair(fs[apply[i].copy]))
  {
    var ws := Copies(apply);
    var repaired := RepairAll(fs, ws, env.repair);
    var artifact := ArtifactOf(apply[i].original);
    RepairAllUpTo(fs, ws, env.repair);
    assert ws[i] == apply[i].copy;
    assert artifact !in ws;
    assert RepairedCount(repaired) == |ws|;
    ClearsAfterRepair(env, fs, repaired.fs, apply[i]);
  }

  /** The original bundle of each placement, in order (a dictionary's `values()`). */
  ghost function Originals(ps: seq<Placement>): (r: seq<Path>)
    ensures |r| == |ps| && forall i :: 0 <= i < |ps| ==> r[i] == ps[i].original
  {
    seq(|ps|, i requires 0 <= i < |ps| => ps[i].original)
  }

  /** The contents of the files `ps` in the tree `fs`, in order. */
  ghost function Contents(fs: FS, ps: seq<Path>): (r: seq<Content>)
    requires forall i :: 0 <= i < |ps| ==> ps[i] in fs
    ensures |r| == |ps| && forall i :: 0 <= i < |ps| ==> r[i] == fs[ps[i]]
  {
    seq(|ps|, i requires 0 <= i < |ps| => fs[ps[i]])
  }

  /**
   * The run `r` stopped at the first failure of the last two phases over bundles `bs`,
   * whose working copies `copies` held `contents` and whose artifacts are judged
   * against `fs`.
   */
  ghost predicate StopsAtFirstFailure(env: Env, fs: FS, bs: seq<Path>, contents: seq<Content>, copies: seq<Path>, r: Outcome)
    requires |contents| == |bs| && |copies| == |bs|
  {
    RepairStopIsFirst(env, contents, copies, r) && VerifyStopIsFirst(env, fs, bs, contents, r)
  }

  /**
   * A repair failure happens exactly when some repair fails. It names the working copy
   * of the last call, whose repair failed after every earlier one succeeded.
   */
  ghost predicate RepairStopIsFirst(env: Env, contents: seq<Content>, copies: seq<Path>, r: Outcome)
    requires |copies| == |contents|
  {
    && (r.Halt? && r.reason.RepairFailed? <==> exists i :: 0 <= i < |contents| && env.repair(contents[i]).None?)
    && (r.Halt? && r.reason.RepairFailed? ==>
          && 0 < |r.calls| <= |contents|
          && r.reason == RepairFailed(copies[|r.calls| - 1])
          && env.repair(contents[|r.calls| - 1]).None?
          && forall i :: 0 <= i < |r.calls| - 1 ==> env.repair(contents[i]).Some?)
  }

  /**
   * A verification-phase stop happens only after every repair succeeded. It comes at
   * some bundle `k` that does not pass while every earlier bundle does. By then all
   * repairs and at most `k + 1` verification calls have been made.
   */
  ghost predicate VerifyStopIsFirst(env: Env, fs: FS, bs: seq<Path>, contents: seq<Content>, r: Outcome)
    requires |contents| == |bs|
  {
    r.Halt? && IsVerifyPhaseFailure(r.reason) ==>
      && (forall i :: 0 <= i < |bs| ==> env.repair(contents[i]).Some?)
      && exists k :: FirstFailingBundle(env, fs, bs, contents, k) && |bs| + k <= |r.calls| <= |bs| + k + 1
  }

  /** Bundle `k` is the first of `bs` that does not pass. */
  ghost predicate FirstFailingBundle(env: Env, fs: FS, bs: seq<Path>, contents: seq<Content>, k: int)
    requires |contents| == |bs|
  {
    && 0 <= k < |bs|
    && !Passes(env, fs, bs[k], env.repair(contents[k]))
    && forall i :: 0 <= i < k ==> Passes(env, fs, bs[i], env.repair(contents[i]))
  }

  /**
   * The last two phases stop at the first failure: the first failed repair, or once
   * every repair succeeded, the first bundle that does not pass verification.
   */
  lemma RepairThenVerifyStops(env: Env, fs: FS, restore: seq<Placement>, apply: seq<Placement>)
    requires forall i :: 0 <= i < |apply| ==> apply[i].copy in fs
    requires Distinct(Copies(apply))
    requires forall i :: 0 <= i < |apply| ==> apply[i].copy.dir == env.workingDir && apply[i].original.dir != env.workingDir
    ensures StopsAtFirstFailure(env, fs, Originals(apply), Contents(fs, Copies(apply)), Copies(apply), RepairThenVerify(env, fs, restore, apply))
  {
    RepairThenVerifyRepairStop(env, fs, restore, apply);
    RepairThenVerifyVerifyStop(env, fs, restore, apply);
  }

  lemma RepairThenVerifyRepairStop(env: Env, fs: FS, restore: seq<Placement>, apply: seq<Placement>)
    requires forall i :: 0 <= i < |apply| ==> apply[i].copy in fs
    requires Distinct(Copies(apply))
    ensures RepairStopIsFirst(env, Contents(fs, Copies(apply)), Copies(apply), RepairThenVerify(env, fs, restore, apply))
  {
    var ws := Copies(apply);
    RepairAllCompletesIff(fs, ws, env.repair);
    RepairStopFromLoop(env, fs, ws, RepairAll(fs, ws, env.repair), RepairThenVerify(env, fs, restore, apply));
  }

  /** The repair-stop half of `StopsAtFirstFailure`, from what the repair loop over `ws` guarantees. */
  lemma RepairStopFromLoop(env: Env, fs: FS, ws: seq<Path>, repaired: RepairResult, r: Outcome)
    requires forall i :: 0 <= i < |ws| ==> ws[i] in fs
    requires repaired.Repaired? <==> forall i :: 0 <= i < |ws| ==> env.repair(fs[ws[i]]).Some?
    requires repaired.RepairHalted? ==> 0 < |repaired.calls| <= |ws| && repaired.at == ws[|repaired.calls| - 1]
    requires repaired.RepairHalted? ==> repaired.at in fs && env.repair(fs[repaired.at]).None? && forall i :: 0 <= i < |repaired.calls| - 1 ==> env.repair(fs[ws[i]]).Some?
    requires repaired.RepairHalted? ==> r == Halt(RepairFailed(repaired.at), repaired.fs, repaired.calls)
    requires r.Halt? && r.reason.RepairFailed? ==> repaired.RepairHalted?
    ensures RepairStopIsFirst(env, Contents(fs, ws), ws, r)
  {
  }

  lemma RepairThenVerifyVerifyStop(env: Env, fs: FS, restore: seq<Placement>, apply: seq<Placement>)
    requires forall i :: 0 <= i < |apply| ==> apply[i].copy in fs
    requires Distinct(Copies(apply))
    requires forall i :: 0 <= i < |apply| ==> apply[i].copy.dir == env.workingDir && apply[i].original.dir != env.workingDir
    ensures VerifyStopIsFirst(env, fs, Originals(apply), Contents(fs, Copies(apply)), RepairThenVerify(env, fs, restore, apply))
  {
    var repaired := RepairAll(fs, Copies(apply), env.repair);
    if repaired.Repaired? {
      VerifyStopAfterRepairs(env, fs, apply, RepairThenVerify(env, fs, restore, apply));
    }
  }

  /** The verify-stop half of `StopsAtFirstFailure` for an outcome whose verification failures come from the verification loop after a completed repair loop. */
  lemma VerifyStopAfterRepairs(env: Env, fs: FS, apply: seq<Placement>, r: Outcome)
    requires forall i :: 0 <= i < |apply| ==> apply[i].copy in fs
    requires Distinct(Copies(apply))
    requires forall i :: 0 <= i < |apply| ==> apply[i].copy.dir == env.workingDir && apply[i].original.dir != env.workingDir
    requires RepairAll(fs, Copies(apply), env.repair).Repaired?
    requires var repaired := RepairAll(fs, Copies(apply), env.repair);
      var verified := VerifyAll(repaired.fs, apply, env.verify, Expected);
      r.Halt? && IsVerifyPhaseFailure(r.reason) ==> verified.VerifyHalted? && r.calls == repaired.calls + verified.calls
    ensures VerifyStopIsFirst(env, fs, Originals(apply), Contents(fs, Copies(apply)), r)
  {
    var ws := Copies(apply);
    RepairAllCompletesIff(fs, ws, env.repair);
    var repaired := RepairAll(fs, ws, env.repair);
    var verified := VerifyAll(repaired.fs, apply, env.verify, Expected);
    VerifyAllSucceedsIff(repaired.fs, apply, env.verify, Expected);
    RepairedClearsIffPassesAll(env, fs, apply);
    VerifyStopFromLoops(env, fs, apply, repaired.fs, repaired.calls, verified, r);
  }

  /** After a completed repair loop, each working copy clears verification exactly when its bundle passes. */
  lemma RepairedClearsIffPassesAll(env: Env, fs: FS, apply: seq<Placement>)
    requires forall i :: 0 <= i < |apply| ==> apply[i].copy in fs
    requires Distinct(Copies(apply))
    requires forall i :: 0 <= i < |apply| ==> apply[i].copy.dir == env.workingDir && apply[i].original.dir != env.workingDir
    requires RepairAll(fs, Copies(apply), env.repair).Repaired?
    ensures forall i :: 0 <= i < |apply| ==>
      (Clears(RepairAll(fs, Copies(apply), env.repair).fs, apply[i], env.verify, Expected) <==>
       Passes(env, fs, apply[i].original, env.repair(fs[apply[i].copy])))
  {
    forall i | 0 <= i < |apply|
      ensures Clears(RepairAll(fs, Copies(apply), env.repair).fs, apply[i], env.verify, Expected) <==>
        Passes(env, fs, apply[i].original, env.repair(fs[apply[i].copy]))
    {
      RepairedClearsIffPasses(env, fs, apply, i);
    }
  }

  /**
   * The verify-stop half of `StopsAtFirstFailure`, from what a completed repair loop
   * and the verification loop after it guarantee.
   */
  lemma VerifyStopFromLoops(env: Env, fs: FS, apply: seq<Placement>, repairedFs: FS, repairs: seq<Call>, verified: VerifyResult, r: Outcome)
    requires forall i :: 0 <= i < |apply| ==> apply[i].copy in fs
    requires forall i :: 0 <= i < |apply| ==> env.repair(fs[Copies(apply)[i]]).Some?
    requires forall i :: 0 <= i < |apply| ==>
      (Clears(repairedFs, apply[i], env.verify, Expected) <==> Passes(env, fs, apply[i].original, env.repair(fs[apply[i].copy])))
    requires verified.VerifyHalted? ==>
      && verified.at < |apply| && verified.at <= |verified.calls| <= verified.at + 1
      && !Clears(repairedFs, apply[verified.at], env.verify, Expected)
      && forall i :: 0 <= i < verified.at ==> Clears(repairedFs, apply[i], env.verify, Expected)
    requires |repairs| == |apply|
    requires r.Halt? && IsVerifyPhaseFailure(r.reason) ==> verified.VerifyHalted? && r.calls == repairs + verified.calls
    ensures VerifyStopIsFirst(env, fs, Originals(apply), Contents(fs, Copies(apply)), r)
  {
    if r.Halt? && IsVerifyPhaseFailure(r.reason) {
      var bs := Originals(apply);
      var contents := Contents(fs, Copies(apply));
      var k := verified.at;
      assert FirstFailingBundle(env, fs, bs, contents, k);
    }
  }

  lemma OnlyWritesInTransitive(fs1: FS, fs2: FS, fs3: FS, dir: string)
    requires OnlyWritesIn(fs1, fs2, dir) && OnlyWritesIn(fs2, fs3, dir)
    ensures OnlyWritesIn(fs1, fs3, dir)
  {
  }

  /** From the working-copy phase on, the run writes only inside the working directory. */
  lemma CopyToWorkingWrites(env: Env, bs: seq<Path>, fs: FS, restore: seq<Placement>)
    requires forall i :: 0 <= i < |bs| ==> bs[i] in fs
    requires Fresh(fs, env.workingDir)
    ensures OnlyWritesIn(fs, CopyToWorking(env, bs, fs, restore).fs, env.workingDir)
  {
    CopyPhaseKeepsTree(fs, bs, env.workingDir, ApplyScript);
    var working := CopyPhase(fs, bs, env.workingDir, ApplyScript);
    if working.Copied? {
      CopyPhaseCopiesContents(fs, bs, env.workingDir, ApplyScript);
      WorkingCopiesDistinct(fs, bs, env.workingDir);
      RepairThenVerifyWrites(env, working.fs, restore, working.placed);
      OnlyWritesInTransitive(fs, working.fs, CopyToWorking(env, bs, fs, restore).fs, env.workingDir);
    }
  }

  /** Checking the working copies against the tree after copying is checking the originals against the tree before. */
  lemma PassesOfCopies(env: Env, fs: FS, copied: FS, bs: seq<Path>, apply: seq<Placement>, dir: string)
    requires OnlyWritesIn(fs, copied, dir)
    requires PlacedInOrder(apply, bs, dir) && |apply| == |bs|
    requires forall i :: 0 <= i < |bs| ==> bs[i] in fs && bs[i].dir != dir
    requires forall i :: 0 <= i < |apply| ==> apply[i].copy in copied && copied[apply[i].copy] == fs[bs[i]]
    ensures (forall i :: 0 <= i < |apply| ==> Passes(env, copied, apply[i].original, env.repair(copied[apply[i].copy])))
      <==> AllRepairAndPass(env, fs, bs)
  {
    forall i | 0 <= i < |bs|
      ensures Passes(env, copied, apply[i].original, env.repair(copied[apply[i].copy])) <==> Passes(env, fs, bs[i], env.repair(fs[bs[i]]))
    {
      PassesUnderWrites(env, fs, copied, dir, bs[i], env.repair(fs[bs[i]]));
    }
  }

  /**
   * From the working-copy phase on, the run succeeds exactly when no two bundles
   * share a name and every bundle repairs and passes.
   */
  lemma CopyToWorkingSucceedsIff(env: Env, bs: seq<Path>, fs: FS, restore: seq<Placement>)
    requires forall i :: 0 <= i < |bs| ==> bs[i] in fs && bs[i].name != ApplyScript
    requires Fresh(fs, env.workingDir)
    ensures CopyToWorking(env, bs, fs, restore).Success? <==> DistinctNames(bs) && AllRepairAndPass(env, fs, bs)
  {
    if CopyPhase(fs, bs, env.workingDir, ApplyScript).Copied? {
      CopyToWorkingThenRepair(env, bs, fs, restore);
      CopiesSucceedIff(env, bs, fs, restore);
    }
  }

  /** Repairing and verifying the working copies succeeds exactly when every original bundle repairs and passes. */
  lemma CopiesSucceedIff(env: Env, bs: seq<Path>, fs: FS, restore: seq<Placement>)
    requires forall i :: 0 <= i < |bs| ==> bs[i] in fs
    requires Fresh(fs, env.workingDir)
    requires CopyPhase(fs, bs, env.workingDir, ApplyScript).Copied?
    ensures var working := CopyPhase(fs, bs, env.workingDir, ApplyScript);
      && (forall i :: 0 <= i < |working.placed| ==> working.placed[i].copy in working.fs)
      && Distinct(Copies(working.placed))
      && (RepairThenVerify(env, working.fs, restore, working.placed).Success? <==> AllRepairAndPass(env, fs, bs))
  {
    var working := CopyPhase(fs, bs, env.workingDir, ApplyScript);
    CopyPhaseKeepsTree(fs, bs, env.workingDir, ApplyScript);
    CopyPhaseCopiesContents(fs, bs, env.workingDir, ApplyScript);
    WorkingCopiesDistinct(fs, bs, env.workingDir);
    RepairThenVerifySucceedsIff(env, working.fs, restore, working.placed);
    PassesOfCopies(env, fs, working.fs, bs, working.placed, env.workingDir);
  }

  /** Once the working copies are all placed, the run goes on to repair and verify them. */
  lemma CopyToWorkingThenRepair(env: Env, bs: seq<Path>, fs: FS, restore: seq<Placement>)
    requires forall i :: 0 <= i < |bs| ==> bs[i] in fs
    requires Fresh(fs, env.workingDir)
    requires CopyPhase(fs, bs, env.workingDir, ApplyScript).Copied?
    ensures var working := CopyPhase(fs, bs, env.workingDir, ApplyScript);
      && (forall i :: 0 <= i < |working.placed| ==> working.placed[i].copy in working.fs)
      && Distinct(Copies(working.placed))
      && CopyToWorking(env, bs, fs, restore) == RepairThenVerify(env, working.fs, restore, working.placed)
  {
    WorkingCopiesDistinct(fs, bs, env.workingDir);
  }

  /** From the backup phase on, existing files are never modified and new files appear only in the two temporary directories. */
  lemma BackUpWrites(env: Env, bs: seq<Path>)
    requires Admissible(env)
    requires forall i :: 0 <= i < |bs| ==> bs[i] in env.fs && IsBundleName(bs[i].name)
    ensures var r := BackUp(env, bs);
      && (forall p :: p in env.fs ==> p in r.fs && r.fs[p] == env.fs[p])
      && (forall p :: p in r.fs ==> p in env.fs || p.dir == env.backupDir || p.dir == env.workingDir)
  {
    CopyPhaseKeepsTree(env.fs, bs, env.backupDir, RestoreScript);
    var backup := CopyPhase(env.fs, bs, env.backupDir, RestoreScript);
    if backup.Copied? && Confirmed(env.backupReply) {
      AfterBackup(env.fs, bs, env.backupDir, env.workingDir);
      CopyToWorkingWrites(env, bs, backup.fs, backup.placed);
    }
  }

  /** From the backup phase on, the run succeeds exactly when the second gate is confirmed and every bundle passes. */
  lemma BackUpSucceedsIff(env: Env, bs: seq<Path>)
    requires Admissible(env)
    requires forall i :: 0 <= i < |bs| ==> bs[i] in env.fs && IsBundleName(bs[i].name)
    ensures BackUp(env, bs).Success? <==> Confirmed(env.backupReply) && DistinctNames(bs) && AllRepairAndPass(env, env.fs, bs)
  {
    ScriptsAreNotBundles(bs);
    var backup := CopyPhase(env.fs, bs, env.backupDir, RestoreScript);
    if backup.Copied? && Confirmed(env.backupReply) {
      CopyPhaseKeepsTree(env.fs, bs, env.backupDir, RestoreScript);
      AfterBackup(env.fs, bs, env.backupDir, env.workingDir);
      CopyToWorkingSucceedsIff(env, bs, backup.fs, backup.placed);
      AllRepairAndPassUnderWrites(env, env.fs, backup.fs, env.backupDir, bs);
    }
  }

  /** The last two phases neither create nor remove files: they only rewrite working copies. */
  lemma RepairThenVerifyKeepsFiles(env: Env, fs: FS, restore: seq<Placement>, apply: seq<Placement>)
    requires forall i :: 0 <= i < |apply| ==> apply[i].copy in fs
    requires Distinct(Copies(apply))
    ensures forall p :: p in RepairThenVerify(env, fs, restore, apply).fs <==> p in fs
  {
    var repaired := RepairAll(fs, Copies(apply), env.repair);
    assert forall p :: p in repaired.fs <==> p in fs;
  }

  /** From the working-copy phase on, the only files created are the apply script and the working copies. */
  lemma CopyToWorkingFiles(env: Env, bs: seq<Path>, fs: FS, restore: seq<Placement>)
    requires forall i :: 0 <= i < |bs| ==> bs[i] in fs
    requires Fresh(fs, env.workingDir)
    ensures forall p :: p in CopyToWorking(env, bs, fs, restore).fs ==> p in fs || PhaseFile(p, bs, env.workingDir, ApplyScript)
  {
    CopyPhaseFiles(fs, bs, env.workingDir, ApplyScript);
    var working := CopyPhase(fs, bs, env.workingDir, ApplyScript);
    if working.Copied? {
      WorkingCopiesDistinct(fs, bs, env.workingDir);
      RepairThenVerifyKeepsFiles(env, working.fs, restore, working.placed);
    }
  }

  /**
   * From the backup phase on, the only files created are the two scripts, the backups
   * and the working copies.
   */
  lemma BackUpFiles(env: Env, bs: seq<Path>)
    requires Admissible(env)
    requires forall i :: 0 <= i < |bs| ==> bs[i] in env.fs && IsBundleName(bs[i].name)
    ensures forall p :: p in BackUp(env, bs).fs ==>
      p in env.fs || PhaseFile(p, bs, env.backupDir, RestoreScript) || PhaseFile(p, bs, env.workingDir, ApplyScript)
  {
    CopyPhaseFiles(env.fs, bs, env.backupDir, RestoreScript);
    var backup := CopyPhase(env.fs, bs, env.backupDir, RestoreScript);
    if backup.Copied? && Confirmed(env.backupReply) {
      AfterBackup(env.fs, bs, env.backupDir, env.workingDir);
      CopyToWorkingFiles(env, bs, backup.fs, backup.placed);
    }
  }

  /**
   * The run never modifies a file that existed before it, original bundles and
   * artifacts included, whatever the outcome; it only adds files to the backup and
   * working directories.
   */
  lemma RunKeepsOriginals(env: Env)
    requires Admissible(env)
    ensures var r := Run(env);
      && (forall p :: p in env.fs ==> p in r.fs && r.fs[p] == env.fs[p])
      && (forall p :: p in r.fs ==> p in env.fs || p.dir == env.backupDir || p.dir == env.workingDir)
      && (forall p :: p in r.fs ==>
            || p in env.fs
            || PhaseFile(p, Discover(env.walk), env.backupDir, RestoreScript)
            || PhaseFile(p, Discover(env.walk), env.workingDir, ApplyScript))
  {
    var bs := Discover(env.walk);
    if |bs| > 0 && Confirmed(env.discoveryReply) {
      DiscoveredAreBundles(env);
      BackUpWrites(env, bs);
      BackUpFiles(env, bs);
    }
  }

  /**
   * All or nothing: the run announces the apply script exactly when every bundle
   * cleared every step, judged against the tree as it was before the run.
   */
  lemma RunSucceedsIffAllPass(env: Env)
    requires Admissible(env)
    ensures Run(env).Success? <==> AllPass(env)
  {
    var bs := Discover(env.walk);
    DiscoveredAreBundles(env);
    if |bs| > 0 && Confirmed(env.discoveryReply) {
      BackUpSucceedsIff(env, bs);
    }
  }

  /**
   * `calls` is in the order of the last two phases over `apply`: the working copies'
   * repairs in order, and only once every copy is repaired, one proper verification
   * call per bundle in order.
   */
  ghost predicate CallsFollow(calls: seq<Call>, apply: seq<Placement>, fs: FS)
  {
    && |calls| <= 2 * |apply|
    && (forall j :: 0 <= j < |calls| && j < |apply| ==> calls[j] == RepairCall(apply[j].copy))
    && (forall j :: |apply| <= j < |calls| ==> ProperCall(fs, calls[j], apply[j - |apply|], Expected))
  }

  /**
   * The tool calls of the last two phases: repairs of the working copies in order
   * first, and only after every repair, one proper verification call per bundle in
   * order; a successful run makes all of them.
   */
  lemma RepairThenVerifyCalls(env: Env, fs: FS, restore: seq<Placement>, apply: seq<Placement>)
    requires forall i :: 0 <= i < |apply| ==> apply[i].copy in fs
    requires Distinct(Copies(apply))
    ensures var r := RepairThenVerify(env, fs, restore, apply);
      CallsFollow(r.calls, apply, r.fs) && (r.Success? ==> |r.calls| == 2 * |apply|)
  {
    var ws := Copies(apply);
    var repaired := RepairAll(fs, ws, env.repair);
    assert forall j :: 0 <= j < |repaired.calls| ==> repaired.calls[j] == RepairCall(apply[j].copy);
    if repaired.Repaired? {
      var verified := VerifyAll(repaired.fs, apply, env.verify, Expected);
      RepairsThenVerifies(repaired.calls, verified.calls, apply, repaired.fs);
    }
  }

  /** Every repair call followed by verification calls for a prefix of the bundles is in phase order. */
  lemma RepairsThenVerifies(repairs: seq<Call>, verifies: seq<Call>, apply: seq<Placement>, fs: FS)
    requires |repairs| == |apply| && forall j :: 0 <= j < |repairs| ==> repairs[j] == RepairCall(apply[j].copy)
    requires |verifies| <= |apply| && forall j :: 0 <= j < |verifies| ==> ProperCall(fs, verifies[j], apply[j], Expected)
    ensures CallsFollow(repairs + verifies, apply, fs)
  {
    var calls := repairs + verifies;
    forall j | |apply| <= j < |calls|
      ensures ProperCall(fs, calls[j], apply[j - |apply|], Expected)
    {
      assert calls[j] == verifies[j - |apply|];
    }
  }

  /**
   * What the last two phases leave behind: files other than working copies are
   * unchanged, and on success every working copy holds its repaired content.
   */
  lemma RepairThenVerifyState(env: Env, fs: FS, restore: seq<Placement>, apply: seq<Placement>)
    requires forall i :: 0 <= i < |apply| ==> apply[i].copy in fs
    requires Distinct(Copies(apply))
    ensures var r := RepairThenVerify(env, fs, restore, apply);
      forall p :: p in fs && p !in Copies(apply) ==> p in r.fs && r.fs[p] == fs[p]
    ensures var r := RepairThenVerify(env, fs, restore, apply);
      r.Success? ==> (
        && r.restore == restore
        && r.apply == apply
        && forall i :: 0 <= i < |apply| ==> apply[i].copy in r.fs && env.repair(fs[apply[i].copy]) == Some(r.fs[apply[i].copy]))
  {
    var ws := Copies(apply);
    RepairAllUpTo(fs, ws, env.repair);
    var repaired := RepairAll(fs, ws, env.repair);
    if repaired.Repaired? {
      assert RepairedCount(repaired) == |ws|;
      forall i | 0 <= i < |apply|
        ensures env.repair(fs[apply[i].copy]) == Some(repaired.fs[apply[i].copy])
      {
        assert ws[i] == apply[i].copy;
      }
    }
  }

  /** From the working-copy phase on, the tool calls follow the working copies' placements. */
  lemma CopyToWorkingCalls(env: Env, bs: seq<Path>, fs: FS, restore: seq<Placement>)
    requires forall i :: 0 <= i < |bs| ==> bs[i] in fs
    requires Fresh(fs, env.workingDir)
    ensures var r := CopyToWorking(env, bs, fs, restore);
      CallsFollow(r.calls, Placements(bs, env.workingDir), r.fs) && (r.Success? ==> |r.calls| == 2 * |bs|)
  {
    var working := CopyPhase(fs, bs, env.workingDir, ApplyScript);
    if working.Copied? {
      PlacedAll(working.placed, bs, env.workingDir);
      WorkingCopiesDistinct(fs, bs, env.workingDir);
      RepairThenVerifyCalls(env, working.fs, restore, working.placed);
    }
  }

  /**
   * A successful working-copy phase and what follows leave the apply script listing
   * every bundle's working copy and original, and each working copy holding the
   * repaired content of its bundle.
   */
  lemma CopyToWorkingState(env: Env, bs: seq<Path>, fs: FS, restore: seq<Placement>)
    requires forall i :: 0 <= i < |bs| ==> bs[i] in fs && bs[i].name != ApplyScript
    requires Fresh(fs, env.workingDir)
    requires CopyToWorking(env, bs, fs, restore).Success?
    ensures var r := CopyToWorking(env, bs, fs, restore);
      && r.restore == restore
      && r.apply == Placements(bs, env.workingDir)
      && Path(env.workingDir, ApplyScript) in r.fs
      && r.fs[Path(env.workingDir, ApplyScript)] == Render(r.apply)
    ensures var r := CopyToWorking(env, bs, fs, restore);
      forall i :: 0 <= i < |bs| ==>
        Path(env.workingDir, bs[i].name) in r.fs && env.repair(fs[bs[i]]) == Some(r.fs[Path(env.workingDir, bs[i].name)])
  {
    var working := CopyPhase(fs, bs, env.workingDir, ApplyScript);
    PlacedAll(working.placed, bs, env.workingDir);
    CopyPhaseCopiesContents(fs, bs, env.workingDir, ApplyScript);
    WorkingCopiesDistinct(fs, bs, env.workingDir);
    RepairThenVerifyState(env, working.fs, restore, working.placed);
    assert Path(env.workingDir, ApplyScript) !in Copies(working.placed);
  }

  /** From the backup phase on, the tool calls follow the working copies' placements. */
  lemma BackUpCalls(env: Env, bs: seq<Path>)
    requires Admissible(env)
    requires forall i :: 0 <= i < |bs| ==> bs[i] in env.fs && IsBundleName(bs[i].name)
    ensures var r := BackUp(env, bs);
      CallsFollow(r.calls, Placements(bs, env.workingDir), r.fs) && (r.Success? ==> |r.calls| == 2 * |bs|)
  {
    var backup := CopyPhase(env.fs, bs, env.backupDir, RestoreScript);
    if backup.Copied? && Confirmed(env.backupReply) {
      AfterBackup(env.fs, bs, env.backupDir, env.workingDir);
      CopyToWorkingCalls(env, bs, backup.fs, backup.placed);
    }
  }

  /**
   * A successful run from the backup phase on leaves the restore script listing every
   * bundle's backup and original, and each backup holding its original's content.
   */
  lemma BackUpRestoreState(env: Env, bs: seq<Path>)
    requires Admissible(env)
    requires forall i :: 0 <= i < |bs| ==> bs[i] in env.fs && IsBundleName(bs[i].name)
    requires BackUp(env, bs).Success?
    ensures var r := BackUp(env, bs);
      && r.restore == Placements(bs, env.backupDir)
      && Path(env.backupDir, RestoreScript) in r.fs
      && r.fs[Path(env.backupDir, RestoreScript)] == Render(r.restore)
    ensures var r := BackUp(env, bs);
      forall i :: 0 <= i < |bs| ==>
        Path(env.backupDir, bs[i].name) in r.fs && r.fs[Path(env.backupDir, bs[i].name)] == env.fs[bs[i]]
  {
    var backup := CopyPhase(env.fs, bs, env.backupDir, RestoreScript);
    var r := BackUp(env, bs);
    BackUpContinues(env, bs);
    CopyPhaseComplete(env.fs, bs, env.backupDir, RestoreScript);
    AfterBackup(env.fs, bs, env.backupDir, env.workingDir);
    CopyToWorkingWrites(env, bs, backup.fs, backup.placed);
    CopyToWorkingKeepsRestore(env, bs, backup.fs, backup.placed);
    forall i | 0 <= i < |bs|
      ensures Path(env.backupDir, bs[i].name) in r.fs && r.fs[Path(env.backupDir, bs[i].name)] == env.fs[bs[i]]
    {
      var q := Path(env.backupDir, bs[i].name);
      assert q in backup.fs && backup.fs[q] == env.fs[bs[i]];
    }
  }

  /** A run that succeeds from the backup phase on passed the collision check and the second gate, and then went on to the working copies. */
  lemma BackUpContinues(env: Env, bs: seq<Path>)
    requires Admissible(env)
    requires forall i :: 0 <= i < |bs| ==> bs[i] in env.fs && IsBundleName(bs[i].name)
    requires BackUp(env, bs).Success?
    ensures var backup := CopyPhase(env.fs, bs, env.backupDir, RestoreScript);
      && backup.Copied?
      && Confirmed(env.backupReply)
      && Fresh(backup.fs, env.workingDir)
      && (forall i :: 0 <= i < |bs| ==> bs[i] in backup.fs)
      && BackUp(env, bs) == CopyToWorking(env, bs, backup.fs, backup.placed)
  {
    AfterBackup(env.fs, bs, env.backupDir, env.workingDir);
  }

  /** The later phases pass the restore script's placements through to a successful outcome unchanged. */
  lemma CopyToWorkingKeepsRestore(env: Env, bs: seq<Path>, fs: FS, restore: seq<Placement>)
    requires forall i :: 0 <= i < |bs| ==> bs[i] in fs
    requires Fresh(fs, env.workingDir)
    requires CopyToWorking(env, bs, fs, restore).Success?
    ensures CopyToWorking(env, bs, fs, restore).restore == restore
  {
  }

  /**
   * A successful run from the backup phase on leaves the apply script listing every
   * bundle's working copy and original, and each working copy holding the repaired
   * content of its original.
   */
  lemma BackUpApplyState(env: Env, bs: seq<Path>)
    requires Admissible(env)
    requires forall i :: 0 <= i < |bs| ==> bs[i] in env.fs && IsBundleName(bs[i].name)
    requires BackUp(env, bs).Success?
    ensures var r := BackUp(env, bs);
      && r.apply == Placements(bs, env.workingDir)
      && Path(env.workingDir, ApplyScript) in r.fs
      && r.fs[Path(env.workingDir, ApplyScript)] == Render(r.apply)
    ensures var r := BackUp(env, bs);
      forall i :: 0 <= i < |bs| ==>
        Path(env.workingDir, bs[i].name) in r.fs && env.repair(env.fs[bs[i]]) == Some(r.fs[Path(env.workingDir, bs[i].name)])
  {
    ScriptsAreNotBundles(bs);
    var backup := CopyPhase(env.fs, bs, env.backupDir, RestoreScript);
    CopyPhaseKeepsTree(env.fs, bs, env.backupDir, RestoreScript);
    AfterBackup(env.fs, bs, env.backupDir, env.workingDir);
    CopyToWorkingState(env, bs, backup.fs, backup.placed);
  }

  /**
   * Whatever the outcome, the tool calls come in phase order: the working copies are
   * repaired one by one in discovery order, and the verifier is called only after
   * every repair, once per bundle in order, on the working copy, the original's
   * artifact and the artifact's release policy. A successful run makes exactly two
   * calls per bundle.
   */
  lemma RunCallOrder(env: Env)
    requires Admissible(env)
    ensures var r := Run(env);
      var bs := Discover(env.walk);
      CallsFollow(r.calls, Placements(bs, env.workingDir), r.fs) && (r.Success? ==> |r.calls| == 2 * |bs|)
  {
    var bs := Discover(env.walk);
    DiscoveredAreBundles(env);
    if |bs| > 0 && Confirmed(env.discoveryReply) {
      BackUpCalls(env, bs);
    }
  }

  /**
   * From the working-copy phase on, over bundles with distinct names, the run stops at
   * the first failure: the first bundle whose repair fails, or, once all are repaired,
   * the first bundle that does not pass, judged against the tree before the copies.
   */
  lemma CopyToWorkingStops(env: Env, bs: seq<Path>, fs: FS, restore: seq<Placement>)
    requires forall i :: 0 <= i < |bs| ==> bs[i] in fs && bs[i].name != ApplyScript
    requires Fresh(fs, env.workingDir)
    requires DistinctNames(bs)
    ensures StopsAtFirstFailure(env, fs, bs, Contents(fs, bs), Copies(Placements(bs, env.workingDir)), CopyToWorking(env, bs, fs, restore))
  {
    var working := CopyPhase(fs, bs, env.workingDir, ApplyScript);
    CopyPhaseKeepsTree(fs, bs, env.workingDir, ApplyScript);
    CopyToWorkingThenRepair(env, bs, fs, restore);
    WorkingCopiesStop(env, bs, fs, restore);
    StopsUnderWrites(env, fs, working.fs, env.workingDir, bs, Contents(fs, bs), Copies(Placements(bs, env.workingDir)), CopyToWorking(env, bs, fs, restore));
  }

  /** Repairing and verifying the working copies stops at the first failure of their originals, judged against the tree after copying. */
  lemma WorkingCopiesStop(env: Env, bs: seq<Path>, fs: FS, restore: seq<Placement>)
    requires forall i :: 0 <= i < |bs| ==> bs[i] in fs && bs[i].name != ApplyScript
    requires Fresh(fs, env.workingDir)
    requires DistinctNames(bs)
    ensures var working := CopyPhase(fs, bs, env.workingDir, ApplyScript);
      && working.Copied?
      && (forall i :: 0 <= i < |working.placed| ==> working.placed[i].copy in working.fs)
      && Distinct(Copies(working.placed))
      && StopsAtFirstFailure(env, working.fs, bs, Contents(fs, bs), Copies(Placements(bs, env.workingDir)),
           RepairThenVerify(env, working.fs, restore, working.placed))
  {
    var working := CopyPhase(fs, bs, env.workingDir, ApplyScript);
    CopyPhaseComplete(fs, bs, env.workingDir, ApplyScript);
    WorkingCopiesDistinct(fs, bs, env.workingDir);
    RepairThenVerifyStops(env, working.fs, restore, working.placed);
    CopiesHoldOriginals(fs, working.fs, bs, working.placed, env.workingDir);
  }

  /** Placements made by a complete copy phase name the bundles in order, and their copies hold the bundles' contents. */
  lemma CopiesHoldOriginals(fs: FS, copied: FS, bs: seq<Path>, placed: seq<Placement>, dir: string)
    requires forall i :: 0 <= i < |bs| ==> bs[i] in fs
    requires placed == Placements(bs, dir)
    requires forall i :: 0 <= i < |bs| ==> Path(dir, bs[i].name) in copied && copied[Path(dir, bs[i].name)] == fs[bs[i]]
    ensures Originals(placed) == bs
    ensures forall i :: 0 <= i < |placed| ==> placed[i].copy in copied
    ensures Contents(copied, Copies(placed)) == Contents(fs, bs)
  {
  }

  /** From the backup phase on, once the second gate is confirmed and no two bundles share a name, the run stops at the first failure. */
  lemma BackUpStops(env: Env, bs: seq<Path>)
    requires Admissible(env)
    requires forall i :: 0 <= i < |bs| ==> bs[i] in env.fs && IsBundleName(bs[i].name)
    requires Confirmed(env.backupReply) && DistinctNames(bs)
    ensures StopsAtFirstFailure(env, env.fs, bs, Contents(env.fs, bs), Copies(Placements(bs, env.workingDir)), BackUp(env, bs))
  {
    ScriptsAreNotBundles(bs);
    var backup := CopyPhase(env.fs, bs, env.backupDir, RestoreScript);
    CopyPhaseKeepsTree(env.fs, bs, env.backupDir, RestoreScript);
    AfterBackup(env.fs, bs, env.backupDir, env.workingDir);
    CopyToWorkingStops(env, bs, backup.fs, backup.placed);
    assert Contents(backup.fs, bs) == Contents(env.fs, bs);
    StopsUnderWrites(env, env.fs, backup.fs, env.backupDir, bs, Contents(env.fs, bs), Copies(Placements(bs, env.workingDir)), BackUp(env, bs));
  }

  /** A repair or verification failure is reached only past the second gate, over bundles with distinct names. */
  lemma BackUpReachesRepair(env: Env, bs: seq<Path>)
    requires Admissible(env)
    requires forall i :: 0 <= i < |bs| ==> bs[i] in env.fs && IsBundleName(bs[i].name)
    ensures var r := BackUp(env, bs);
      r.Halt? && (r.reason.RepairFailed? || IsVerifyPhaseFailure(r.reason)) ==> Confirmed(env.backupReply) && DistinctNames(bs)
  {
    ScriptsAreNotBundles(bs);
    var backup := CopyPhase(env.fs, bs, env.backupDir, RestoreScript);
    if backup.Copied? && Confirmed(env.backupReply) {
      AfterBackup(env.fs, bs, env.backupDir, env.workingDir);
      CopyToWorkingCollides(env, bs, backup.fs, backup.placed);
    }
  }

  /** The run gets past both confirmations, and its bundles' names are distinct. */
  ghost predicate ReachesRepair(env: Env)
  {
    var bs := Discover(env.walk);
    |bs| > 0 && Confirmed(env.discoveryReply) && Confirmed(env.backupReply) && DistinctNames(bs)
  }

  /**
   * A run that gets past both confirmations with distinct bundle names stops at the
   * first failure. A repair failure happens exactly when some bundle's repair fails,
   * and names the first such bundle's working copy. A verification-phase failure
   * comes only after every repair succeeded, at the first bundle that does not pass.
   */
  lemma RunStopsAtFirstFailure(env: Env)
    requires Admissible(env)
    ensures forall i :: 0 <= i < |Discover(env.walk)| ==> Discover(env.walk)[i] in env.fs
    ensures var bs := Discover(env.walk);
      ReachesRepair(env) ==>
        StopsAtFirstFailure(env, env.fs, bs, Contents(env.fs, bs), Copies(Placements(bs, env.workingDir)), Run(env))
  {
    var bs := Discover(env.walk);
    DiscoveredAreBundles(env);
    if ReachesRepair(env) {
      BackUpStops(env, bs);
    }
  }

  /** A repair or verification failure is possible only when the run gets past both confirmations with distinct bundle names. */
  lemma RunFailureReachesRepair(env: Env)
    requires Admissible(env)
    ensures var r := Run(env);
      r.Halt? && (r.reason.RepairFailed? || IsVerifyPhaseFailure(r.reason)) ==> ReachesRepair(env)
  {
    var bs := Discover(env.walk);
    if |bs| > 0 && Confirmed(env.discoveryReply) {
      DiscoveredAreBundles(env);
      BackUpReachesRepair(env, bs);
    }
  }

  /**
   * A run that stops in the backup phase, on a name collision or a refused second
   * confirmation, calls no tool and adds files only to the backup directory.
   */
  lemma RunBackUpStop(env: Env)
    requires Admissible(env)
    ensures var r := Run(env);
      var bs := Discover(env.walk);
      |bs| > 0 && Confirmed(env.discoveryReply)
      && (CopyPhase(env.fs, bs, env.backupDir, RestoreScript).Collided? || !Confirmed(env.backupReply)) ==>
        && r.Halt? && r.calls == []
        && (forall p :: p in env.fs ==> p in r.fs && r.fs[p] == env.fs[p])
        && (forall p :: p in r.fs ==> p in env.fs || p.dir == env.backupDir)
  {
    var bs := Discover(env.walk);
    if |bs| > 0 && Confirmed(env.discoveryReply) {
      DiscoveredAreBundles(env);
      BackUpStop(env, bs);
    }
  }

  /**
   * The verifier is only ever called over an artifact that was a file of the tree
   * before the run: the existence check comes before the call.
   */
  lemma RunVerifiesExistingArtifacts(env: Env)
    requires Admissible(env)
    ensures var r := Run(env);
      var bs := Discover(env.walk);
      forall j :: |bs| <= j < |r.calls| ==> r.calls[j].VerifyCall? && r.calls[j].artifact in env.fs
  {
    RunCallOrder(env);
    RunKeepsOriginals(env);
    DiscoveredAreBundles(env);
    ArtifactsExisted(Run(env).calls, Discover(env.walk), env, Run(env).fs);
  }

  /** Verification calls over a tree that gained files only in the temporary directories name artifacts of the tree before. */
  lemma ArtifactsExisted(calls: seq<Call>, bs: seq<Path>, env: Env, fs: FS)
    requires Admissible(env)
    requires forall i :: 0 <= i < |bs| ==> bs[i] in env.fs
    requires CallsFollow(calls, Placements(bs, env.workingDir), fs)
    requires forall p :: p in fs ==> p in env.fs || p.dir == env.backupDir || p.dir == env.workingDir
    ensures forall j :: |bs| <= j < |calls| ==>
      calls[j].VerifyCall? && calls[j].artifact == ArtifactOf(bs[j - |bs|]) && calls[j].artifact in env.fs
  {
    var ps := Placements(bs, env.workingDir);
    forall j | |bs| <= j < |calls|
      ensures calls[j].VerifyCall? && calls[j].artifact == ArtifactOf(bs[j - |bs|]) && calls[j].artifact in env.fs
    {
      var b := bs[j - |bs|];
      assert ps[j - |bs|].original == b;
      assert b in env.fs;
    }
  }

  /**
   * A successful run leaves the restore script listing each bundle's backup and
   * original in discovery order, and every backup holding its original's content.
   */
  lemma RunRestoreState(env: Env)
    requires Admissible(env)
    requires Run(env).Success?
    ensures var r := Run(env);
      var bs := Discover(env.walk);
      && r.restore == Placements(bs, env.backupDir)
      && Path(env.backupDir, RestoreScript) in r.fs
      && r.fs[Path(env.backupDir, RestoreScript)] == Render(r.restore)
      && (forall i :: 0 <= i < |bs| ==>
            && bs[i] in env.fs
            && Path(env.backupDir, bs[i].name) in r.fs
            && r.fs[Path(env.backupDir, bs[i].name)] == env.fs[bs[i]])
  {
    DiscoveredAreBundles(env);
    BackUpRestoreState(env, Discover(env.walk));
  }

  /**
   * A successful run leaves the apply script listing each bundle's working copy and
   * original in discovery order, and every working copy holding the repaired content
   * of its original.
   */
  lemma RunApplyState(env: Env)
    requires Admissible(env)
    requires Run(env).Success?
    ensures var r := Run(env);
      var bs := Discover(env.walk);
      && r.apply == Placements(bs, env.workingDir)
      && Path(env.workingDir, ApplyScript) in r.fs
      && r.fs[Path(env.workingDir, ApplyScript)] == Render(r.apply)
      && (forall i :: 0 <= i < |bs| ==>
            && bs[i] in env.fs
            && Path(env.workingDir, bs[i].name) in r.fs
            && env.repair(env.fs[bs[i]]) == Some(r.fs[Path(env.workingDir, bs[i].name)]))
  {
    DiscoveredAreBundles(env);
    BackUpApplyState(env, Discover(env.walk));
  }

  /**
   * The restore script of a successful run reads back as exactly the copies it
   * performs, when no path involved contains a space, a line break, or a '/' in its
   * name: each line copies one bundle's backup over its original.
   */
  lemma RunRestoreReadsBack(env: Env)
    requires Admissible(env)
    requires Run(env).Success?
    requires Plain(Path(env.backupDir, RestoreScript))
    requires forall p :: p in env.walk ==> Plain(p)
    ensures var r := Run(env);
      && Path(env.backupDir, RestoreScript) in r.fs
      && Parse(r.fs[Path(env.backupDir, RestoreScript)]) == Some(r.restore)
  {
    RunRestoreState(env);
    DiscoveredArePlain(env);
    ScriptReadsBack(Discover(env.walk), env.backupDir, RestoreScript);
  }

  /**
   * The apply script of a successful run reads back as exactly the copies it
   * performs, under the same condition on paths: each line copies one bundle's
   * repaired working copy over its original.
   */
  lemma RunApplyReadsBack(env: Env)
    requires Admissible(env)
    requires Run(env).Success?
    requires Plain(Path(env.workingDir, ApplyScript))
    requires forall p :: p in env.walk ==> Plain(p)
    ensures var r := Run(env);
      && Path(env.workingDir, ApplyScript) in r.fs
      && Parse(r.fs[Path(env.workingDir, ApplyScript)]) == Some(r.apply)
  {
    RunApplyState(env);
    DiscoveredArePlain(env);
    ScriptReadsBack(Discover(env.walk), env.workingDir, ApplyScript);
  }

  /** Discovered bundles are walked files, so they are plain when every walked file is. */
  lemma DiscoveredArePlain(env: Env)
    requires forall p :: p in env.walk ==> Plain(p)
    ensures forall i :: 0 <= i < |Discover(env.walk)| ==> Plain(Discover(env.walk)[i])
  {
    var bs := Discover(env.walk);
    assert forall i :: 0 <= i < |bs| ==> bs[i] in bs;
  }

  /** A script rendered from the placements of plain bundles into a plain directory parses back to those placements. */
  lemma ScriptReadsBack(bs: seq<Path>, dir: string, scriptName: string)
    requires Plain(Path(dir, scriptName))
    requires forall i :: 0 <= i < |bs| ==> Plain(bs[i])
    ensures Parse(Render(Placements(bs, dir))) == Some(Placements(bs, dir))
  {
    ParseRender(Placements(bs, dir));
  }
}

=== FILE: optional.dfy ===
/** The absent-or-present value used wherever the script either finds something or does not. */
module Optional {

  datatype Option<+T> = None | Some(value: T)
}

=== FILE: phases.dfy ===
/**
 * The three per-bundle phases of the migration: copying the bundles into a fresh
 * directory together with a script that copies them back, repairing each working
 * copy in place, and verifying each repaired copy. Each phase walks the bundles in
 * order and stops at the first failure.
 */
module Phases {
  import opened Optional
  import opened ReleaseVersion
  import opened Policies
  import opened Files
  import opened Discovery

  /** Why a run stopped. */
  datatype Failure =
    | NoBundles
    | NotConfirmed(prompt: nat)
    | NameCollision(target: Path)
    | RepairFailed(bundle: Path)
    | MissingArtifact(artifact: Path)
    | NoVersion(artifactName: string)
    | UnknownRelease(release: string)
    | VerifyFailed(bundle: Path)

  /** A call into the external Sigstore tool. */
  datatype Call =
    | RepairCall(bundle: Path)
    | VerifyCall(bundle: Path, artifact: Path, policy: Policy)

  /** The outcome of a copy phase: the tree and the placements made, up to the first collision. */
  datatype CopyResult =
    | Copied(fs: FS, placed: seq<Placement>)
    | Collided(fs: FS, placed: seq<Placement>, at: Path)

  /** No two bundles share a file name. */
  ghost predicate DistinctNames(bs: seq<Path>)
  {
    forall i, j :: 0 <= i < j < |bs| ==> bs[i].name != bs[j].name
  }

  /** Copying every bundle into `dir` under its own name meets no existing file. */
  ghost predicate CollisionFree(fs: FS, bs: seq<Path>, dir: string)
  {
    DistinctNames(bs) && forall i :: 0 <= i < |bs| ==> Path(dir, bs[i].name) !in fs
  }

  /** `placed` copies the first `|placed|` bundles, in order, to `dir` under their own names. */
  ghost predicate PlacedInOrder(placed: seq<Placement>, bs: seq<Path>, dir: string)
  {
    |placed| <= |bs| && forall i :: 0 <= i < |placed| ==> placed[i] == Placement(Path(dir, bs[i].name), bs[i])
  }

  /** The placements of a whole copy phase: each bundle copied to `dir` under its own name, in order. */
  function Placements(bs: seq<Path>, dir: string): (ps: seq<Placement>)
    ensures PlacedInOrder(ps, bs, dir) && |ps| == |bs|
  {
    seq(|bs|, i requires 0 <= i < |bs| => Placement(Path(dir, bs[i].name), bs[i]))
  }

  /** A copy phase that placed every bundle placed them exactly as `Placements` says. */
  lemma PlacedAll(ps: seq<Placement>, bs: seq<Path>, dir: string)
    requires PlacedInOrder(ps, bs, dir) && |ps| == |bs|
    ensures ps == Placements(bs, dir)
  {
  }

  /**
   * One iteration of a copy loop: copy `b` to `dir/<name>` unless an earlier
   * iteration stopped or that target already exists.
   */
  function CopyStep(prev: CopyResult, b: Path, dir: string): (r: CopyResult)
    requires b in prev.fs
  {
    if prev.Collided? then prev
    else
      var target := Path(dir, b.name);
      if target in prev.fs then Collided(prev.fs, prev.placed, target)
      else Copied(prev.fs[target := prev.fs[b]], prev.placed + [Placement(target, b)])
  }

  /**
   * Copies each bundle to `dir/<name>`, in order, stopping at the first target that
   * already exists: the placements made are the first bundles' copies in order, a
   * stop names the target of the first bundle that could not be copied.
   */
  function CopyAll(fs: FS, bs: seq<Path>, dir: string): (r: CopyResult)
    requires forall i :: 0 <= i < |bs| ==> bs[i] in fs
    ensures PlacedInOrder(r.placed, bs, dir)
    ensures r.Copied? ==> |r.placed| == |bs|
    ensures r.Collided? ==> |r.placed| < |bs| && r.at == Path(dir, bs[|r.placed|].name)
    ensures forall p :: p in fs ==> p in r.fs
    decreases |bs|
  {
    if |bs| == 0 then Copied(fs, [])
    else
      var prev := CopyAll(fs, bs[..|bs| - 1], dir);
      CopyStepPlaces(prev, bs, dir);
      CopyStep(prev, bs[|bs| - 1], dir)
  }

  /** The copy loop adds to the tree exactly the copies it places, and nothing else. */
  lemma {:induction false} CopyAllFiles(fs: FS, bs: seq<Path>, dir: string)
    requires forall i :: 0 <= i < |bs| ==> bs[i] in fs
    ensures var r := CopyAll(fs, bs, dir);
      forall p :: p in r.fs <==> p in fs || p in CopySet(r.placed)
    decreases |bs|
  {
    if |bs| > 0 {
      CopyAllFiles(fs, bs[..|bs| - 1], dir);
      CopyStepFiles(fs, CopyAll(fs, bs[..|bs| - 1], dir), bs[|bs| - 1], dir);
    }
  }

  /** One more iteration of a copy loop places the next bundle in order, or names its target on a stop. */
  lemma CopyStepPlaces(prev: CopyResult, bs: seq<Path>, dir: string)
    requires |bs| > 0 && bs[|bs| - 1] in prev.fs
    requires PlacedInOrder(prev.placed, bs[..|bs| - 1], dir)
    requires prev.Copied? ==> |prev.placed| == |bs| - 1
    requires prev.Collided? ==> |prev.placed| < |bs| - 1 && prev.at == Path(dir, bs[|prev.placed|].name)
    ensures var r := CopyStep(prev, bs[|bs| - 1], dir);
      && PlacedInOrder(r.placed, bs, dir)
      && (r.Copied? ==> |r.placed| == |bs|)
      && (r.Collided? ==> |r.placed| < |bs| && r.at == Path(dir, bs[|r.placed|].name))
  {
    assert forall i :: 0 <= i < |bs| - 1 ==> bs[..|bs| - 1][i] == bs[i];
  }

  /** One more iteration of a copy loop adds to the tree exactly the copy it places. */
  lemma CopyStepFiles(fs: FS, prev: CopyResult, b: Path, dir: string)
    requires b in prev.fs
    requires forall p :: p in prev.fs <==> p in fs || p in CopySet(prev.placed)
    ensures var r := CopyStep(prev, b, dir);
      forall p :: p in r.fs <==> p in fs || p in CopySet(r.placed)
  {
    var r := CopyStep(prev, b, dir);
    if prev.Copied? && r.Copied? {
      CopySetAppend(prev.placed, Placement(Path(dir, b.name), b));
    }
  }

  /** Every file of `fs` is still there unchanged, and every copy holds its original's content. */
  ghost predicate ContentsKept(fs: FS, r: CopyResult)
  {
    && (forall p :: p in fs ==> p in r.fs && r.fs[p] == fs[p])
    && (forall i :: 0 <= i < |r.placed| ==>
          r.placed[i].copy in r.fs && r.placed[i].original in fs && r.fs[r.placed[i].copy] == fs[r.placed[i].original])
  }

  lemma CopyStepKeepsContents(fs: FS, prev: CopyResult, b: Path, dir: string)
    requires b in fs && ContentsKept(fs, prev)
    ensures ContentsKept(fs, CopyStep(prev, b, dir))
  {
    var r := CopyStep(prev, b, dir);
    if prev.Copied? && r.Copied? {
      assert r.placed[|prev.placed|].original == b;
    }
  }

  /**
   * Copying never overwrites: every file already in the tree keeps its content, and
   * each copy holds the content its original had when it was copied.
   */
  lemma {:induction false} CopyAllKeepsContents(fs: FS, bs: seq<Path>, dir: string)
    requires forall i :: 0 <= i < |bs| ==> bs[i] in fs
    ensures ContentsKept(fs, CopyAll(fs, bs, dir))
    decreases |bs|
  {
    if |bs| > 0 {
      CopyAllKeepsContents(fs, bs[..|bs| - 1], dir);
      CopyStepKeepsContents(fs, CopyAll(fs, bs[..|bs| - 1], dir), bs[|bs| - 1], dir);
    }
  }

  lemma CollisionFreeSnoc(fs: FS, bs: seq<Path>, dir: string)
    requires |bs| > 0
    ensures CollisionFree(fs, bs, dir) <==>
      && CollisionFree(fs, bs[..|bs| - 1], dir)
      && Path(dir, bs[|bs| - 1].name) !in fs
      && forall j :: 0 <= j < |bs| - 1 ==> bs[j].name != bs[|bs| - 1].name
  {
    var front := bs[..|bs| - 1];
    assert forall j :: 0 <= j < |front| ==> front[j] == bs[j];
  }

  lemma TargetAmongCopies(placed: seq<Placement>, front: seq<Path>, b: Path, dir: string)
    requires PlacedInOrder(placed, front, dir) && |placed| == |front|
    ensures Path(dir, b.name) in CopySet(placed) <==> exists j :: 0 <= j < |front| && front[j].name == b.name
  {
    if exists j :: 0 <= j < |front| && front[j].name == b.name {
      var j :| 0 <= j < |front| && front[j].name == b.name;
      assert placed[j].copy == Path(dir, b.name);
    }
  }

  /** The bundle at index `n` cannot be copied after the ones before it: its target exists, or an earlier bundle has its name. */
  ghost predicate CollidesAt(fs: FS, bs: seq<Path>, n: nat, dir: string)
    requires n < |bs|
  {
    Path(dir, bs[n].name) in fs || exists j :: 0 <= j < n && bs[j].name == bs[n].name
  }

  /**
   * A copy phase completes exactly when no two bundles share a name and no target
   * already exists. When it stops, it stops at the first collision: the bundles it
   * copied before stopping were collision-free, and the next one collides.
   */
  lemma {:induction false} CopyAllSucceedsIff(fs: FS, bs: seq<Path>, dir: string)
    requires forall i :: 0 <= i < |bs| ==> bs[i] in fs
    ensures CollisionFree(fs, bs[..|CopyAll(fs, bs, dir).placed|], dir)
    ensures CopyAll(fs, bs, dir).Copied? <==> CollisionFree(fs, bs, dir)
    ensures var r := CopyAll(fs, bs, dir);
      r.Collided? ==> CollidesAt(fs, bs, |r.placed|, dir)
    decreases |bs|
  {
    if |bs| > 0 {
      var front := bs[..|bs| - 1];
      CopyAllSucceedsIff(fs, front, dir);
      CopyAllFiles(fs, front, dir);
      CopyStepSucceedsIff(fs, CopyAll(fs, front, dir), bs, dir);
      CopyStepCollides(fs, CopyAll(fs, front, dir), bs, dir);
    } else {
      assert bs[..0] == bs;
    }
  }

  /** One more iteration of a copy loop stops only on a collision of the bundle it stops at. */
  lemma CopyStepCollides(fs: FS, prev: CopyResult, bs: seq<Path>, dir: string)
    requires |bs| > 0 && bs[|bs| - 1] in prev.fs
    requires PlacedInOrder(prev.placed, bs[..|bs| - 1], dir)
    requires prev.Copied? ==> |prev.placed| == |bs| - 1
    requires prev.Collided? ==> |prev.placed| < |bs| - 1 && CollidesAt(fs, bs[..|bs| - 1], |prev.placed|, dir)
    requires forall p :: p in prev.fs <==> p in fs || p in CopySet(prev.placed)
    ensures var r := CopyStep(prev, bs[|bs| - 1], dir);
      r.Collided? ==> |r.placed| < |bs| && CollidesAt(fs, bs, |r.placed|, dir)
  {
    var front := bs[..|bs| - 1];
    var b := bs[|bs| - 1];
    assert forall j :: 0 <= j < |front| ==> front[j] == bs[j];
    if prev.Copied? && Path(dir, b.name) in prev.fs && Path(dir, b.name) !in fs {
      TargetAmongCopies(prev.placed, front, b, dir);
      var j :| 0 <= j < |front| && front[j].name == b.name;
      assert bs[j].name == bs[|prev.placed|].name;
    }
  }

  /** One more iteration of a copy loop succeeds exactly when the longer list is still collision-free. */
  lemma CopyStepSucceedsIff(fs: FS, prev: CopyResult, bs: seq<Path>, dir: string)
    requires |bs| > 0 && bs[|bs| - 1] in prev.fs
    requires PlacedInOrder(prev.placed, bs[..|bs| - 1], dir)
    requires prev.Copied? ==> |prev.placed| == |bs| - 1
    requires prev.Collided? ==> |prev.placed| < |bs| - 1
    requires forall p :: p in prev.fs <==> p in fs || p in CopySet(prev.placed)
    requires CollisionFree(fs, bs[..|bs| - 1][..|prev.placed|], dir)
    requires prev.Copied? <==> CollisionFree(fs, bs[..|bs| - 1], dir)
    ensures var r := CopyStep(prev, bs[|bs| - 1], dir);
      CollisionFree(fs, bs[..|r.placed|], dir) && (r.Copied? <==> CollisionFree(fs, bs, dir))
  {
    var front := bs[..|bs| - 1];
    var b := bs[|bs| - 1];
    CollisionFreeSnoc(fs, bs, dir);
    if prev.Collided? {
      assert bs[..|prev.placed|] == front[..|prev.placed|];
    } else {
      assert front[..|prev.placed|] == front;
      TargetAmongCopies(prev.placed, front, b, dir);
      assert forall j :: 0 <= j < |front| ==> front[j] == bs[j];
      if Path(dir, b.name) !in prev.fs {
        assert bs[..|bs|] == bs;
      }
    }
  }

  /** Creating the empty script file before copying makes its name collide exactly when some bundle has it. */
  lemma ScriptCollision(fs: FS, bs: seq<Path>, dir: string, scriptName: string)
    requires Fresh(fs, dir)
    ensures CollisionFree(fs[Path(dir, scriptName) := ""], bs, dir) <==>
      DistinctNames(bs) && forall i :: 0 <= i < |bs| ==> bs[i].name != scriptName
  {
  }

  /**
   * A whole copy phase, as the backup and the working-copy loops both run it: the
   * script file `dir/scriptName` is created empty first, every bundle is copied to
   * `dir/<name>` in order until a target already exists, and the script ends up
   * holding one `cp <copy> <original>` line per copy made.
   */
  function CopyPhase(fs: FS, bs: seq<Path>, dir: string, scriptName: string): (r: CopyResult)
    requires forall i :: 0 <= i < |bs| ==> bs[i] in fs
    requires Fresh(fs, dir)
    ensures PlacedInOrder(r.placed, bs, dir)
    ensures r.Copied? <==> DistinctNames(bs) && forall i :: 0 <= i < |bs| ==> bs[i].name != scriptName
    ensures r.Copied? ==> |r.placed| == |bs|
    ensures r.Collided? ==> |r.placed| < |bs| && r.at == Path(dir, bs[|r.placed|].name)
    ensures Path(dir, scriptName) in r.fs && r.fs[Path(dir, scriptName)] == Render(r.placed)
  {
    var script := Path(dir, scriptName);
    var start := fs[script := ""];
    CopyAllSucceedsIff(start, bs, dir);
    ScriptCollision(fs, bs, dir, scriptName);
    var inner := CopyAll(start, bs, dir);
    match inner
    case Copied(f, placed) => Copied(f[script := Render(placed)], placed)
    case Collided(f, placed, at) => Collided(f[script := Render(placed)], placed, at)
  }

  /** The bundles a copy phase copied have distinct names, none of them the script's. */
  lemma CopyPhaseCopiedDistinct(fs: FS, bs: seq<Path>, dir: string, scriptName: string)
    requires forall i :: 0 <= i < |bs| ==> bs[i] in fs
    requires Fresh(fs, dir)
    ensures var r := CopyPhase(fs, bs, dir, scriptName);
      DistinctNames(bs[..|r.placed|]) && forall i :: 0 <= i < |r.placed| ==> bs[i].name != scriptName
  {
    var start := fs[Path(dir, scriptName) := ""];
    CopyAllSucceedsIff(start, bs, dir);
    var n := |CopyPhase(fs, bs, dir, scriptName).placed|;
    assert forall i :: 0 <= i < n ==> bs[..n][i] == bs[i];
  }

  /**
   * A copy phase stops at a bundle whose name is the script's or repeats an earlier
   * bundle's. With `CopyPhaseCopiedDistinct`, it is the first such bundle.
   */
  lemma CopyPhaseStopsAtCollision(fs: FS, bs: seq<Path>, dir: string, scriptName: string)
    requires forall i :: 0 <= i < |bs| ==> bs[i] in fs
    requires Fresh(fs, dir)
    ensures var r := CopyPhase(fs, bs, dir, scriptName);
      r.Collided? ==> bs[|r.placed|].name == scriptName || exists j :: 0 <= j < |r.placed| && bs[j].name == bs[|r.placed|].name
  {
    var start := fs[Path(dir, scriptName) := ""];
    CopyAllSucceedsIff(start, bs, dir);
  }

  /** A file that exists before copying is never one of the copies. */
  lemma CopiesAreNew(fs: FS, bs: seq<Path>, dir: string, existing: Path)
    requires forall i :: 0 <= i < |bs| ==> bs[i] in fs
    requires existing in fs
    ensures forall i :: 0 <= i < |CopyAll(fs, bs, dir).placed| ==> CopyAll(fs, bs, dir).placed[i].copy != existing
  {
    CopyAllSucceedsIff(fs, bs, dir);
    var inner := CopyAll(fs, bs, dir);
    forall i | 0 <= i < |inner.placed|
      ensures inner.placed[i].copy != existing
    {
      assert bs[..|inner.placed|][i] == bs[i];
    }
  }

  /** A copy phase never modifies a file that existed before it, and adds files only in its own directory. */
  lemma CopyPhaseKeepsTree(fs: FS, bs: seq<Path>, dir: string, scriptName: string)
    requires forall i :: 0 <= i < |bs| ==> bs[i] in fs
    requires Fresh(fs, dir)
    ensures var r := CopyPhase(fs, bs, dir, scriptName);
      && (forall p :: p in fs ==> p in r.fs && r.fs[p] == fs[p])
      && (forall p :: p in r.fs ==> p in fs || p.dir == dir)
  {
    var script := Path(dir, scriptName);
    var start := fs[script := ""];
    var inner := CopyAll(start, bs, dir);
    CopyAllKeepsContents(start, bs, dir);
    CopyAllFiles(start, bs, dir);
    WrittenTreeKept(fs, start, inner.fs, inner.placed, script, Render(inner.placed), dir);
  }

  /**
   * A tree built from `fs` by creating `script` in `dir`, then adding copies placed in
   * `dir`, then writing `script`, keeps every file of `fs` and adds files only in `dir`.
   */
  lemma WrittenTreeKept(fs: FS, start: FS, f: FS, placed: seq<Placement>, script: Path, text: string, dir: string)
    requires script.dir == dir && script !in fs && start == fs[script := ""]
    requires forall p :: p in start ==> p in f && f[p] == start[p]
    requires forall p :: p in f <==> p in start || p in CopySet(placed)
    requires forall i :: 0 <= i < |placed| ==> placed[i].copy.dir == dir
    ensures forall p :: p in fs ==> p in f[script := text] && f[script := text][p] == fs[p]
    ensures forall p :: p in f[script := text] ==> p in fs || p.dir == dir
  {
    forall p | p in f[script := text] && p !in fs && p != script
      ensures p.dir == dir
    {
      var i :| 0 <= i < |placed| && placed[i].copy == p;
    }
  }

  /** `p` is a file a copy phase over `bs` into `dir` may create: its script, or the target of one of the bundles. */
  ghost predicate PhaseFile(p: Path, bs: seq<Path>, dir: string, scriptName: string)
  {
    p == Path(dir, scriptName) || exists i :: 0 <= i < |bs| && p == Path(dir, bs[i].name)
  }

  /** The only files a copy phase creates are its script and the bundles' copies. */
  lemma CopyPhaseFiles(fs: FS, bs: seq<Path>, dir: string, scriptName: string)
    requires forall i :: 0 <= i < |bs| ==> bs[i] in fs
    requires Fresh(fs, dir)
    ensures var r := CopyPhase(fs, bs, dir, scriptName);
      forall p :: p in r.fs ==> p in fs || PhaseFile(p, bs, dir, scriptName)
  {
    var script := Path(dir, scriptName);
    var start := fs[script := ""];
    var inner := CopyAll(start, bs, dir);
    CopyAllFiles(start, bs, dir);
    WrittenFilesArePhaseFiles(fs, start, inner.fs, inner.placed, bs, Render(inner.placed), dir, scriptName);
  }

  /**
   * A tree built from `fs` by creating the script, adding copies placed in order, and
   * writing the script holds only files of `fs` and phase files.
   */
  lemma WrittenFilesArePhaseFiles(fs: FS, start: FS, f: FS, placed: seq<Placement>, bs: seq<Path>, text: string, dir: string, scriptName: string)
    requires start == fs[Path(dir, scriptName) := ""]
    requires forall p :: p in f <==> p in start || p in CopySet(placed)
    requires PlacedInOrder(placed, bs, dir)
    ensures forall p :: p in f[Path(dir, scriptName) := text] ==> p in fs || PhaseFile(p, bs, dir, scriptName)
  {
    forall p | p in f[Path(dir, scriptName) := text] && p !in fs && p != Path(dir, scriptName)
      ensures PhaseFile(p, bs, dir, scriptName)
    {
      var i :| 0 <= i < |placed| && placed[i].copy == p;
      assert p == Path(dir, bs[i].name);
    }
  }

  /** A completed copy phase placed every bundle in order, and each copy holds its original's content. */
  lemma CopyPhaseComplete(fs: FS, bs: seq<Path>, dir: string, scriptName: string)
    requires forall i :: 0 <= i < |bs| ==> bs[i] in fs
    requires Fresh(fs, dir)
    requires CopyPhase(fs, bs, dir, scriptName).Copied?
    ensures var r := CopyPhase(fs, bs, dir, scriptName);
      && r.placed == Placements(bs, dir)
      && forall i :: 0 <= i < |bs| ==> Path(dir, bs[i].name) in r.fs && r.fs[Path(dir, bs[i].name)] == fs[bs[i]]
  {
    var r := CopyPhase(fs, bs, dir, scriptName);
    PlacedAll(r.placed, bs, dir);
    CopyPhaseCopiesContents(fs, bs, dir, scriptName);
    assert forall i :: 0 <= i < |bs| ==> r.placed[i].copy == Path(dir, bs[i].name);
  }

  /** After a copy phase each copy holds its original's content. */
  lemma CopyPhaseCopiesContents(fs: FS, bs: seq<Path>, dir: string, scriptName: string)
    requires forall i :: 0 <= i < |bs| ==> bs[i] in fs
    requires Fresh(fs, dir)
    ensures var r := CopyPhase(fs, bs, dir, scriptName);
      forall i :: 0 <= i < |r.placed| ==> r.placed[i].copy in r.fs && r.fs[r.placed[i].copy] == fs[bs[i]]
  {
    var start := fs[Path(dir, scriptName) := ""];
    CopyAllKeepsContents(start, bs, dir);
    CopiesAreNew(start, bs, dir, Path(dir, scriptName));
    var inner := CopyAll(start, bs, dir);
    var r := CopyPhase(fs, bs, dir, scriptName);
    assert r.placed == inner.placed && r.fs == inner.fs[Path(dir, scriptName) := Render(inner.placed)];
    forall i | 0 <= i < |r.placed|
      ensures r.fs[r.placed[i].copy] == fs[bs[i]]
    {
      assert inner.placed[i].original == bs[i];
      assert start[bs[i]] == fs[bs[i]];
      assert inner.fs[inner.placed[i].copy] == start[inner.placed[i].original];
      assert inner.placed[i].copy != Path(dir, scriptName);
    }
  }

  /** The outcome of the repair loop: the tree, the repair calls made, and where it stopped. */
  datatype RepairResult =
    | Repaired(fs: FS, calls: seq<Call>)
    | RepairHalted(fs: FS, calls: seq<Call>, at: Path)

  /** How many bundles the repair loop repaired: every call but a failed last one. */
  function RepairedCount(r: RepairResult): (n: nat)
  {
    if r.Repaired? || |r.calls| == 0 then |r.calls| else |r.calls| - 1
  }

  /** No path occurs twice. */
  ghost predicate Distinct(ws: seq<Path>)
  {
    forall i, j :: 0 <= i < j < |ws| ==> ws[i] != ws[j]
  }

  /** One iteration of the repair loop: repair `w` in place, unless an earlier repair failed. */
  function RepairStep(prev: RepairResult, w: Path, repair: Content -> Option<Content>): (r: RepairResult)
    requires w in prev.fs
  {
    if prev.RepairHalted? then prev
    else
      var calls := prev.calls + [RepairCall(w)];
      match repair(prev.fs[w])
      case None => RepairHalted(prev.fs, calls, w)
      case Some(fixed) => Repaired(prev.fs[w := fixed], calls)
  }

  /**
   * Runs the external repair on each working copy in order, replacing its content in
   * place, and stops at the first failure. One repair call is made per bundle reached,
   * in order, and the set of files does not change.
   */
  function RepairAll(fs: FS, ws: seq<Path>, repair: Content -> Option<Content>): (r: RepairResult)
    requires forall i :: 0 <= i < |ws| ==> ws[i] in fs
    ensures forall p :: p in r.fs <==> p in fs
    ensures |r.calls| <= |ws| && forall i :: 0 <= i < |r.calls| ==> r.calls[i] == RepairCall(ws[i])
    ensures r.Repaired? ==> |r.calls| == |ws|
    ensures r.RepairHalted? ==> 0 < |r.calls| && r.at == ws[|r.calls| - 1]
    decreases |ws|
  {
    if |ws| == 0 then Repaired(fs, [])
    else RepairStep(RepairAll(fs, ws[..|ws| - 1], repair), ws[|ws| - 1], repair)
  }

  /** Each working copy ends up repaired if the loop reached it successfully, and untouched otherwise. */
  ghost predicate RepairedUpTo(fs: FS, ws: seq<Path>, repair: Content -> Option<Content>, r: RepairResult)
    requires forall i :: 0 <= i < |ws| ==> ws[i] in fs
    requires forall p :: p in r.fs <==> p in fs
  {
    && (forall p :: p in fs && p !in ws ==> r.fs[p] == fs[p])
    && (forall i :: 0 <= i < |ws| && i < RepairedCount(r) ==> repair(fs[ws[i]]) == Some(r.fs[ws[i]]))
    && (forall i :: 0 <= i < |ws| && RepairedCount(r) <= i ==> r.fs[ws[i]] == fs[ws[i]])
  }

  /**
   * The repair loop changes only working copies: those it reached and repaired hold
   * the repaired content of what they held before; the rest, and every other file,
   * are unchanged.
   */
  lemma {:induction false} RepairAllUpTo(fs: FS, ws: seq<Path>, repair: Content -> Option<Content>)
    requires forall i :: 0 <= i < |ws| ==> ws[i] in fs
    requires Distinct(ws)
    ensures RepairedUpTo(fs, ws, repair, RepairAll(fs, ws, repair))
    decreases |ws|
  {
    if |ws| > 0 {
      var front := ws[..|ws| - 1];
      RepairAllUpTo(fs, front, repair);
      RepairStepUpTo(fs, ws, repair, RepairAll(fs, front, repair));
    }
  }

  /** One more iteration of the repair loop keeps the loop's effect as `RepairedUpTo` describes it. */
  lemma RepairStepUpTo(fs: FS, ws: seq<Path>, repair: Content -> Option<Content>, prev: RepairResult)
    requires forall i :: 0 <= i < |ws| ==> ws[i] in fs
    requires |ws| > 0 && Distinct(ws)
    requires forall p :: p in prev.fs <==> p in fs
    requires prev.Repaired? ==> RepairedCount(prev) == |ws| - 1
    requires prev.RepairHalted? ==> RepairedCount(prev) < |ws| - 1
    requires RepairedUpTo(fs, ws[..|ws| - 1], repair, prev)
    ensures var r := RepairStep(prev, ws[|ws| - 1], repair);
      (forall p :: p in r.fs <==> p in fs) && RepairedUpTo(fs, ws, repair, r)
  {
    var front := ws[..|ws| - 1];
    var w := ws[|ws| - 1];
    var r := RepairStep(prev, w, repair);
    assert forall i :: 0 <= i < |front| ==> ws[i] == front[i];
    assert w !in front;
    assert prev.fs[w] == fs[w];
    if prev.Repaired? {
      match repair(fs[w])
      case None =>
        assert RepairedCount(r) == |front|;
      case Some(fixed) =>
        assert r.fs == prev.fs[w := fixed];
        assert RepairedCount(r) == |ws|;
    }
  }

  /**
   * The repair loop completes exactly when the repair succeeds on every working
   * copy's content, and when it stops, it stops at the first copy it cannot repair.
   */
  lemma {:induction false} RepairAllCompletesIff(fs: FS, ws: seq<Path>, repair: Content -> Option<Content>)
    requires forall i :: 0 <= i < |ws| ==> ws[i] in fs
    requires Distinct(ws)
    ensures RepairAll(fs, ws, repair).Repaired? <==> forall i :: 0 <= i < |ws| ==> repair(fs[ws[i]]).Some?
    ensures var r := RepairAll(fs, ws, repair);
      r.RepairHalted? ==> repair(fs[r.at]).None? && forall i :: 0 <= i < |r.calls| - 1 ==> repair(fs[ws[i]]).Some?
    decreases |ws|
  {
    if |ws| > 0 {
      var front := ws[..|ws| - 1];
      var w := ws[|ws| - 1];
      RepairAllCompletesIff(fs, front, repair);
      var prev := RepairAll(fs, front, repair);
      assert forall i :: 0 <= i < |front| ==> front[i] == ws[i];
      assert prev.fs[w] == fs[w] by {
        assert w !in front;
        RepairAllUpTo(fs, front, repair);
      }
    }
  }

  /**
   * The policy for the release the artifact's name carries. There is one exactly when
   * the name carries a release and the table has that release as a key.
   */
  function PolicyFor(table: Table, artifact: Path): (r: Option<Policy>)
    ensures r.Some? <==> Version(artifact.name).Some? && Version(artifact.name).value in table
    ensures r.Some? ==> r.value == table[Version(artifact.name).value]
  {
    match Version(artifact.name)
    case None => None
    case Some(release) => Lookup(table, release)
  }

  /**
   * A repaired working copy clears verification: its artifact exists, the artifact's
   * name carries a release, the table has a policy for that release, and the verifier
   * accepts the working copy over the original artifact under that policy.
   */
  ghost predicate Clears(fs: FS, pl: Placement, verify: (Content, Content, string, string) -> bool, table: Table)
  {
    var artifact := ArtifactOf(pl.original);
    && pl.copy in fs
    && artifact in fs
    && match Version(artifact.name)
       case None => false
       case Some(release) =>
         && release in table
         && verify(fs[pl.copy], fs[artifact], table[release].issuer, table[release].identity)
  }

  /** A verification call made for `pl` over the tree `fs`: the working copy, the original's artifact, which is a file of `fs`, and the artifact's policy. */
  ghost predicate ProperCall(fs: FS, c: Call, pl: Placement, table: Table)
  {
    var artifact := ArtifactOf(pl.original);
    && c.VerifyCall?
    && c.bundle == pl.copy
    && c.artifact == artifact
    && artifact in fs
    && PolicyFor(table, artifact) == Some(c.policy)
  }

  /** The ways the verification loop can stop: the fatal conditions of its per-bundle checks. */
  predicate IsVerifyPhaseFailure(f: Failure)
  {
    f.MissingArtifact? || f.NoVersion? || f.UnknownRelease? || f.VerifyFailed?
  }

  /** The result of checking one bundle: the verification call made, if any, and the failure, if any. */
  datatype Check = Check(calls: seq<Call>, failure: Option<Failure>)

  /**
   * One iteration of the verification loop: the artifact must exist, its name must
   * carry a release, the release must have a policy, and only then is the verifier
   * called, on the working copy and the original artifact.
   */
  function VerifyOne(fs: FS, pl: Placement, verify: (Content, Content, string, string) -> bool, table: Table): (r: Check)
    requires pl.copy in fs
    ensures r.failure.None? <==> Clears(fs, pl, verify, table)
    ensures |r.calls| <= 1 && forall i :: 0 <= i < |r.calls| ==> ProperCall(fs, r.calls[i], pl, table)
    ensures |r.calls| == 1 <==> ArtifactOf(pl.original) in fs && PolicyFor(table, ArtifactOf(pl.original)).Some?
    ensures r.failure.None? ==> |r.calls| == 1
    ensures r.failure.Some? ==> IsVerifyPhaseFailure(r.failure.value)
  {
    var artifact := ArtifactOf(pl.original);
    if artifact !in fs then Check([], Some(MissingArtifact(artifact)))
    else
      match Version(artifact.name)
      case None => Check([], Some(NoVersion(artifact.name)))
      case Some(release) =>
        match Lookup(table, release)
        case None => Check([], Some(UnknownRelease(release)))
        case Some(policy) =>
          var call := VerifyCall(pl.copy, artifact, policy);
          if verify(fs[pl.copy], fs[artifact], policy.issuer, policy.identity) then Check([call], None)
          else Check([call], Some(VerifyFailed(pl.copy)))
  }

  /**
   * Each failure of a bundle's check names its cause: a missing artifact, an artifact
   * name without a release, a release without a policy, or a verifier rejection of
   * the working copy.
   */
  lemma VerifyOneFailureCause(fs: FS, pl: Placement, verify: (Content, Content, string, string) -> bool, table: Table)
    requires pl.copy in fs
    ensures var r := VerifyOne(fs, pl, verify, table);
      var artifact := ArtifactOf(pl.original);
      && (r.failure == Some(MissingArtifact(artifact)) <==> artifact !in fs)
      && (r.failure == Some(NoVersion(artifact.name)) <==> artifact in fs && Version(artifact.name).None?)
      && (r.failure.Some? && r.failure.value.UnknownRelease? <==>
            artifact in fs && Version(artifact.name).Some? && Version(artifact.name).value !in table)
      && (r.failure.Some? && r.failure.value.UnknownRelease? ==> r.failure.value.release == Version(artifact.name).value)
      && (r.failure == Some(VerifyFailed(pl.copy)) <==> |r.calls| == 1 && !Clears(fs, pl, verify, table))
  {
  }

  /** The outcome of the verification loop: the calls made and, on a stop, why and at which bundle. */
  datatype VerifyResult =
    | Verified(calls: seq<Call>)
    | VerifyHalted(calls: seq<Call>, reason: Failure, at: nat)

  /** One iteration of the verification loop, for the bundle at index `n`, unless an earlier one stopped. */
  function VerifyStep(prev: VerifyResult, fs: FS, pl: Placement, n: nat, verify: (Content, Content, string, string) -> bool, table: Table): (r: VerifyResult)
    requires pl.copy in fs
  {
    if prev.VerifyHalted? then prev
    else
      var check := VerifyOne(fs, pl, verify, table);
      var calls := prev.calls + check.calls;
      if check.failure.None? then Verified(calls) else VerifyHalted(calls, check.failure.value, n)
  }

  /**
   * Checks each placement in order and stops at the first that does not clear.
   * Every call it makes is the proper verification call for its bundle, one per
   * bundle checked, and a stop names a bundle the loop reached.
   */
  function VerifyAll(fs: FS, placed: seq<Placement>, verify: (Content, Content, string, string) -> bool, table: Table): (r: VerifyResult)
    requires forall i :: 0 <= i < |placed| ==> placed[i].copy in fs
    ensures r.VerifyHalted? ==> r.at < |placed| && r.at <= |r.calls| <= r.at + 1
    ensures r.VerifyHalted? ==> IsVerifyPhaseFailure(r.reason)
    ensures r.Verified? ==> |r.calls| == |placed|
    ensures |r.calls| <= |placed| && forall i :: 0 <= i < |r.calls| ==> ProperCall(fs, r.calls[i], placed[i], table)
    decreases |placed|
  {
    if |placed| == 0 then Verified([])
    else
      var n := |placed| - 1;
      var prev := VerifyAll(fs, placed[..n], verify, table);
      VerifyStepCalls(prev, fs, placed, verify, table);
      VerifyStep(prev, fs, placed[n], n, verify, table)
  }

  /** One more iteration of the verification loop keeps its calls proper and its stop in range. */
  lemma VerifyStepCalls(prev: VerifyResult, fs: FS, placed: seq<Placement>, verify: (Content, Content, string, string) -> bool, table: Table)
    requires |placed| > 0 && placed[|placed| - 1].copy in fs
    requires var n := |placed| - 1;
      && (prev.VerifyHalted? ==> prev.at < n && prev.at <= |prev.calls| <= prev.at + 1 && IsVerifyPhaseFailure(prev.reason))
      && (prev.Verified? ==> |prev.calls| == n)
      && |prev.calls| <= n && forall i :: 0 <= i < |prev.calls| ==> ProperCall(fs, prev.calls[i], placed[..n][i], table)
    ensures var n := |placed| - 1;
      var r := VerifyStep(prev, fs, placed[n], n, verify, table);
      && (r.VerifyHalted? ==> r.at < |placed| && r.at <= |r.calls| <= r.at + 1 && IsVerifyPhaseFailure(r.reason))
      && (r.Verified? ==> |r.calls| == |placed|)
      && |r.calls| <= |placed| && forall i :: 0 <= i < |r.calls| ==> ProperCall(fs, r.calls[i], placed[i], table)
  {
    var n := |placed| - 1;
    assert forall i :: 0 <= i < n ==> placed[..n][i] == placed[i];
    if prev.Verified? {
      var check := VerifyOne(fs, placed[n], verify, table);
      var calls := prev.calls + check.calls;
      assert forall i :: n <= i < |calls| ==> calls[i] == check.calls[i - n];
    }
  }

  /**
   * The verification loop completes exactly when every bundle clears, and a stop
   * names the first bundle that does not.
   */
  lemma {:induction false} VerifyAllSucceedsIff(fs: FS, placed: seq<Placement>, verify: (Content, Content, string, string) -> bool, table: Table)
    requires forall i :: 0 <= i < |placed| ==> placed[i].copy in fs
    ensures VerifyAll(fs, placed, verify, table).Verified? <==> forall i :: 0 <= i < |placed| ==> Clears(fs, placed[i], verify, table)
    ensures var r := VerifyAll(fs, placed, verify, table);
      r.VerifyHalted? ==> !Clears(fs, placed[r.at], verify, table) && forall i :: 0 <= i < r.at ==> Clears(fs, placed[i], verify, table)
    decreases |placed|
  {
    if |placed| > 0 {
      var n := |placed| - 1;
      VerifyAllSucceedsIff(fs, placed[..n], verify, table);
      VerifyStepSucceedsIff(VerifyAll(fs, placed[..n], verify, table), fs, placed, verify, table);
    }
  }

  /** One more iteration of the verification loop completes exactly when the new bundle clears too. */
  lemma VerifyStepSucceedsIff(prev: VerifyResult, fs: FS, placed: seq<Placement>, verify: (Content, Content, string, string) -> bool, table: Table)
    requires |placed| > 0 && placed[|placed| - 1].copy in fs
    requires var n := |placed| - 1;
      && (prev.VerifyHalted? ==> prev.at < n)
      && (prev.Verified? <==> forall i :: 0 <= i < n ==> Clears(fs, placed[..n][i], verify, table))
      && (prev.VerifyHalted? ==> !Clears(fs, placed[..n][prev.at], verify, table) && forall i :: 0 <= i < prev.at ==> Clears(fs, placed[..n][i], verify, table))
    ensures var n := |placed| - 1;
      var r := VerifyStep(prev, fs, placed[n], n, verify, table);
      && (r.Verified? <==> forall i :: 0 <= i < |placed| ==> Clears(fs, placed[i], verify, table))
      && (r.VerifyHalted? ==> r.at < |placed| && !Clears(fs, placed[r.at], verify, table) && forall i :: 0 <= i < r.at ==> Clears(fs, placed[i], verify, table))
  {
    var n := |placed| - 1;
    assert forall i :: 0 <= i < n ==> placed[..n][i] == placed[i];
  }
}

=== FILE: policies.dfy ===
/**
 * The static trust-policy table: for each CPython release ("major.minor") the OIDC
 * issuer and the signer identity its Sigstore certificates must carry.
 */
module Policies {
  import opened Optional

  /** The (issuer, identity) pair a verifier must see in a bundle's certificate. */
  datatype Policy = Policy(issuer: string, identity: string)

  type Table = map<string, Policy>

  const GitHubIssuer: string := "https://github.com/login/oauth"
  const GoogleIssuer: string := "https://accounts.google.com"

  /** The releases the table covers. */
  const Releases: set<string> := {"3.7", "3.8", "3.9", "3.10", "3.11", "3.12", "3.13"}

  /** The table the migration script is configured with. */
  const Expected: Table := map[
    "3.7" := Policy(GitHubIssuer, "nad@python.org"),
    "3.8" := Policy(GitHubIssuer, "lukasz@langa.pl"),
    "3.9" := Policy(GitHubIssuer, "lukasz@langa.pl"),
    "3.10" := Policy(GoogleIssuer, "pablogsal@python.org"),
    "3.11" := Policy(GoogleIssuer, "pablogsal@python.org"),
    "3.12" := Policy(GoogleIssuer, "thomas@python.org"),
    "3.13" := Policy(GoogleIssuer, "thomas@python.org")
  ]

  /** `table[release]`: a missing key is the script's `KeyError`, reported as `None`. */
  function Lookup(table: Table, release: string): (r: Option<Policy>)
    ensures r.Some? <==> release in table
    ensures r.Some? ==> r.value == table[release]
  {
    if release in table then Some(table[release]) else None
  }

  /**
   * The configured table covers exactly releases 3.7 to 3.13; 3.7 to 3.9 were signed
   * through GitHub and 3.10 onwards through Google, each by its release manager.
   */
  lemma ExpectedCoverage(release: string)
    ensures Lookup(Expected, release).Some? <==> release in Releases
    ensures release in {"3.7", "3.8", "3.9"} ==> Lookup(Expected, release).value.issuer == GitHubIssuer
    ensures release in {"3.10", "3.11", "3.12", "3.13"} ==> Lookup(Expected, release).value.issuer == GoogleIssuer
    ensures release == "3.7" ==> Lookup(Expected, release).value.identity == "nad@python.org"
    ensures release == "3.8" || release == "3.9" ==> Lookup(Expected, release).value.identity == "lukasz@langa.pl"
    ensures release == "3.10" || release == "3.11" ==> Lookup(Expected, release).value.identity == "pablogsal@python.org"
    ensures release == "3.12" || release == "3.13" ==> Lookup(Expected, release).value.identity == "thomas@python.org"
  {
  }

  /** Releases outside the table, including the degenerate group "3.", have no policy. */
  lemma UncoveredReleases()
    ensures Lookup(Expected, "3.6").None?
    ensures Lookup(Expected, "3.14").None?
    ensures Lookup(Expected, "3.").None?
  {
  }
}

=== FILE: strings.dfy ===
/** Text helpers mirroring the Python `str` methods the migration script relies on. */
module Strings {

  /** `s.startswith(prefix)`: the first characters of `s` are those of `prefix`. */
  function StartsWith(s: string, prefix: string): (b: bool)
    ensures b <==> |prefix| <= |s| && forall i :: 0 <= i < |prefix| ==> s[i] == prefix[i]
  {
    |prefix| <= |s| && s[..|prefix|] == prefix
  }

  /** `s.endswith(suffix)`: the last characters of `s` are those of `suffix`. */
  function EndsWith(s: string, suffix: string): (b: bool)
    ensures b <==> |suffix| <= |s| && forall i :: 0 <= i < |suffix| ==> s[|s| - |suffix| + i] == suffix[i]
  {
    |suffix| <= |s| && s[|s| - |suffix|..] == suffix
  }

  /** `s.removesuffix(suffix)`: strips one trailing copy of `suffix`, if present. */
  function RemoveSuffix(s: string, suffix: string): (r: string)
    ensures EndsWith(s, suffix) ==> r + suffix == s
    ensures !EndsWith(s, suffix) ==> r == s
  {
    if EndsWith(s, suffix) then s[..|s| - |suffix|] else s
  }

  /** The regex class `[0-9]`: ASCII digits only. */
  predicate IsDigit(c: char)
  {
    '0' <= c <= '9'
  }
}

=== FILE: version.dfy ===
/**
 * The release-version pattern `-(3\.[0-9]{,2})\.[0-9]{,2}` and Python's leftmost
 * `search` over it, written as an explicit scanner over characters.
 *
 * A match starts at `i` when `s[i..i+3]` is "-3." and, for the one `k` in 0..2 such
 * that the `k` characters after it are digits and the next one is '.', the greedy
 * digit run stops on that '.'. The trailing `[0-9]{,2}` may match nothing, so it
 * never decides whether there is a match. Group 1 is "3." followed by the `k` digits.
 */
module ReleaseVersion {
  import opened Optional
  import opened Strings

  /** Where the leftmost match starts and how many minor-version digits it has. */
  datatype Match = Match(start: nat, minorDigits: nat)

  /** The pattern matches at position `i` with `k` minor-version digits. */
  ghost predicate MatchesAt(s: string, i: nat, k: nat)
  {
    && k <= 2
    && i + 3 + k < |s|
    && s[i] == '-' && s[i + 1] == '3' && s[i + 2] == '.'
    && (forall j :: i + 3 <= j < i + 3 + k ==> IsDigit(s[j]))
    && s[i + 3 + k] == '.'
  }

  /** The match at `i` with `k` digits is the leftmost match in `s`. */
  ghost predicate IsLeftmost(s: string, i: nat, k: nat)
  {
    MatchesAt(s, i, k) && forall j: nat, k': nat :: j < i ==> !MatchesAt(s, j, k')
  }

  /** A version as group 1 can produce it: "3." and then at most two digits. */
  ghost predicate IsReleaseShape(v: string)
  {
    2 <= |v| <= 4 && v[..2] == "3." && forall j :: 2 <= j < |v| ==> IsDigit(v[j])
  }

  /** Greedy `[0-9]{,limit}` starting at `i`: the length of the digit run, capped at `limit`. */
  function DigitRun(s: string, i: nat, limit: nat): (n: nat)
    requires i <= |s|
    ensures n <= limit && i + n <= |s|
    ensures forall j :: i <= j < i + n ==> IsDigit(s[j])
    ensures n < limit && i + n < |s| ==> !IsDigit(s[i + n])
    decreases limit
  {
    if limit == 0 || i == |s| || !IsDigit(s[i]) then 0 else 1 + DigitRun(s, i + 1, limit - 1)
  }

  /** At most one digit count can make the pattern match at a given position. */
  lemma MatchIsUnique(s: string, i: nat, k1: nat, k2: nat)
    requires MatchesAt(s, i, k1) && MatchesAt(s, i, k2)
    ensures k1 == k2
  {
  }

  /**
   * Tries the pattern at position `i` with the greedy digit run. No backtracking is
   * needed: a shorter run would be followed by a digit, not by '.'.
   */
  function MatchAt(s: string, i: nat): (r: Option<nat>)
    ensures r.Some? ==> MatchesAt(s, i, r.value)
    ensures r.None? ==> forall k: nat :: !MatchesAt(s, i, k)
  {
    if i + 3 <= |s| && s[i] == '-' && s[i + 1] == '3' && s[i + 2] == '.' then
      var k := DigitRun(s, i + 3, 2);
      if i + 3 + k < |s| && s[i + 3 + k] == '.' then Some(k)
      else None
    else None
  }

  /** The leftmost match starting at or after `i`. */
  function SearchFrom(s: string, i: nat): (r: Option<Match>)
    requires i <= |s|
    ensures r.Some? ==> i <= r.value.start && MatchesAt(s, r.value.start, r.value.minorDigits)
    ensures r.Some? ==> forall j: nat, k: nat :: i <= j < r.value.start ==> !MatchesAt(s, j, k)
    ensures r.None? ==> forall j: nat, k: nat :: i <= j ==> !MatchesAt(s, j, k)
    decreases |s| - i
  {
    if i == |s| then None
    else
      match MatchAt(s, i)
      case Some(k) => Some(Match(i, k))
      case None => SearchFrom(s, i + 1)
  }

  /** `re.search(pattern, s)`: the leftmost match, if any. */
  function Search(s: string): (r: Option<Match>)
    ensures r.Some? ==> IsLeftmost(s, r.value.start, r.value.minorDigits)
    ensures r.None? <==> forall i: nat, k: nat :: !MatchesAt(s, i, k)
  {
    SearchFrom(s, 0)
  }

  /** `match.group(1)` of the leftmost match: the release's "major.minor". */
  function Version(s: string): (r: Option<string>)
    ensures r.Some? ==> IsReleaseShape(r.value)
  {
    match Search(s)
    case None => None
    case Some(m) =>
      GroupShape(s, m.start, m.minorDigits);
      Some(s[m.start + 1..m.start + 3 + m.minorDigits])
  }

  /** Group 1 of a match is "3." followed by the match's minor digits. */
  lemma GroupShape(s: string, i: nat, k: nat)
    requires MatchesAt(s, i, k)
    ensures IsReleaseShape(s[i + 1..i + 3 + k])
  {
    var v := s[i + 1..i + 3 + k];
    assert v[0] == s[i + 1] && v[1] == s[i + 2];
    assert v[..2] == "3.";
    assert forall j :: 2 <= j < |v| ==> v[j] == s[i + 1 + j];
  }

  /**
   * The version is found exactly when the pattern matches somewhere, and it is then
   * "3." followed by the minor digits of the leftmost match.
   */
  lemma VersionIsLeftmostGroup(s: string)
    ensures Version(s).None? <==> forall i: nat, k: nat :: !MatchesAt(s, i, k)
    ensures Version(s).Some? ==> exists i: nat, k: nat :: IsLeftmost(s, i, k) && Version(s).value == "3." + s[i + 3..i + 3 + k]
  {
    match Search(s)
    case None =>
    case Some(m) =>
      assert s[m.start + 1..m.start + 3 + m.minorDigits] == "3." + s[m.start + 3..m.start + 3 + m.minorDigits];
  }

  /** The leftmost match is determined by the string: two leftmost matches coincide. */
  lemma LeftmostIsUnique(s: string, i1: nat, k1: nat, i2: nat, k2: nat)
    requires IsLeftmost(s, i1, k1) && IsLeftmost(s, i2, k2)
    ensures i1 == i2 && k1 == k2
  {
    if i1 == i2 {
      MatchIsUnique(s, i1, k1, k2);
    }
  }

  /** A match that closes inside `a` is a match in `a + suffix` and conversely. */
  lemma MatchInsidePrefix(a: string, suffix: string, j: nat, k: nat)
    requires j + 3 + k < |a|
    ensures MatchesAt(a + suffix, j, k) <==> MatchesAt(a, j, k)
  {
    assert forall t :: 0 <= t < |a| ==> (a + suffix)[t] == a[t];
  }

  /**
   * Left of a match at `i` in `a`, no match of `a + suffix` can reach the appended
   * text: it would cover position `i`, which holds '-', and a match holds '-' only at
   * its start.
   */
  lemma NoMatchIntoSuffix(a: string, suffix: string, i: nat, k: nat, j: nat, k': nat)
    requires MatchesAt(a, i, k) && j < i && |a| <= j + 3 + k'
    ensures !MatchesAt(a + suffix, j, k')
  {
    var s := a + suffix;
    assert s[i] == a[i] == '-' && !IsDigit('-');
  }

  /**
   * Appending any text after a name that already contains a version never moves the
   * leftmost match, so a bundle name and its artifact name agree on the release.
   */
  lemma VersionSurvivesSuffix(a: string, suffix: string)
    requires Version(a).Some?
    ensures Version(a + suffix) == Version(a)
  {
    var s := a + suffix;
    var m := Search(a).value;
    LeftmostSurvivesSuffix(a, suffix, m.start, m.minorDigits);
    var r := Search(s);
    assert r.Some?;
    LeftmostIsUnique(s, r.value.start, r.value.minorDigits, m.start, m.minorDigits);
    assert s[m.start + 1..m.start + 3 + m.minorDigits] == a[m.start + 1..m.start + 3 + m.minorDigits];
  }

  /** The leftmost match of `a` stays the leftmost match whatever text is appended. */
  lemma LeftmostSurvivesSuffix(a: string, suffix: string, i: nat, k: nat)
    requires IsLeftmost(a, i, k)
    ensures IsLeftmost(a + suffix, i, k)
  {
    var s := a + suffix;
    MatchInsidePrefix(a, suffix, i, k);
    forall j: nat, k': nat | j < i
      ensures !MatchesAt(s, j, k')
    {
      if j + 3 + k' < |a| {
        MatchInsidePrefix(a, suffix, j, k');
      } else {
        NoMatchIntoSuffix(a, suffix, i, k, j, k');
      }
    }
  }

  /** `Python-3.10.4.tgz` resolves to release "3.10". */
  lemma ExampleTarball()
    ensures Version("Python-3.10.4.tgz") == Some("3.10")
  {
    var s := "Python-3.10.4.tgz";
    assert MatchesAt(s, 6, 2);
    assert IsLeftmost(s, 6, 2);
    var r := Search(s);
    LeftmostIsUnique(s, r.value.start, r.value.minorDigits, 6, 2);
    assert s[7..11] == "3.10";
  }

  /** A three-digit minor version is not a match: `x-3.100.tgz` has no release. */
  lemma ExampleThreeDigitMinor()
    ensures Version("x-3.100.tgz") == None
  {
    var s := "x-3.100.tgz";
  }
}
